=== FILE: README.md ===
# Ticket store model

A Dafny model of the ticket-tracking store of a small FastAPI/SQLAlchemy
service. The service keeps users, projects, tickets and comments in four
tables. Around them it offers lookups, filtered and paginated listings,
creation with existence gating, partial updates and deletions. It also has a
small URL-joining helper in its HTTP client.

The database is an immutable `Store` value:

- four tables, each a map from key to row plus the keys in insertion order, so that pagination is deterministic;
- a counter that hands out fresh keys, standing for `uuid4`;
- a monotone clock, standing for `utcnow`.

Every operation is a pure function. It takes a store that satisfies `Valid` and
returns `Result<(Store, Row), Error>`. `Valid` bundles the schema's guarantees:

- primary keys;
- unique usernames, emails and project names;
- foreign keys that name existing rows.

Every state-changing operation proves that it preserves `Valid`.

Module layout:

| module | what it models |
|---|---|
| `Models` | `app/core/database/models.py`: enums, column defaults, row types, schema constraints |
| `Projects` | `app/utils/project.py` |
| `Users` | `app/utils/user.py` |
| `Tickets` | `app/utils/ticket.py` |
| `Comments` | `app/utils/comment.py` |
| `TicketViews`, `UserViews`, `CommentViews` | the decision logic of `app/api/v1/*_views.py` |
| `HttpClient` | `_full_url` in `app/utils/http_client.py` |

Supporting modules:

- `Tables`: keyed, ordered tables.
- `Paging`: the `OFFSET (page-1)*size LIMIT size` window.
- `Text`: `ILIKE '%x%'` as ASCII case-insensitive substring search.
- `Seqs`: filter and first-match helpers.
- `Wrappers`: `Option` and `Result`.

Error outcomes:

- `NotFound(entity)` stands for the 404s.
- `IntegrityError` stands for a rejected commit.
- `InvalidPagination` stands for a negative `OFFSET` or `LIMIT`.
- `Unexpected` stands for a 500 raised by reading a missing relation.

## Model

| member | source | states |
|---|---|---|
| Models.ParseTicketStatus | app/core/database/models.py:15-18 | A ticket status is exactly one of open, in_progress, closed; each value reads back to its own member and no other |
| Models.ParseUserStatus | app/core/database/models.py:20-22 | A user status is exactly active or inactive, each value naming one member |
| Models.ParseTicketPriority | app/core/database/models.py:24-28 | A priority is exactly one of low, medium, high, critical, each value naming one member |
| Models.EmptyStoreValid | app/core/database/models.py:30-94 | The empty database meets every key, uniqueness and foreign-key constraint of the schema |
| Projects.CheckProjectExists | app/utils/project.py:8-13 | A project is returned iff one has exactly that name; it is the stored row and the only project with that name |
| Projects.CreateDefaultProject | app/utils/project.py:15-30 | An existing project of that name is returned with the store unchanged; otherwise exactly one project with that name and a fresh key is added and nothing else changes |
| Projects.CreateDefaultProjectIdempotent | app/utils/project.py:15-30 | A second call returns the same project and leaves the store as the first call left it |
| Users.CheckUserExists | app/utils/user.py:12-17 | A user is returned iff one has exactly (case-sensitively) that username, and it is the stored row |
| Users.CreateUser | app/utils/user.py:39-52 | The intended insert (see "Left out"): a taken username or email is rejected; otherwise exactly one user is added with the given username, email and status, fresh user_id and api_key, other users and tables unchanged |
| Users.CreatedUserIsFound | app/utils/user.py:12-17 | A freshly created user is found both by exact username and by id |
| Users.CreateDefaultUser | app/utils/user.py:19-37 | An existing user of that name is returned with the store unchanged; otherwise one active user of that name and the placeholder email is added and the other tables are unchanged, failing only if that email is taken |
| Users.CreateDefaultUserIdempotent | app/utils/user.py:20-26 | Two calls in a row return the same user_id and the second changes nothing |
| Users.CreateDefaultUserAsWritten | app/utils/user.py:19-37 | As written: succeeds iff the user already exists; creating one always fails on the non-null email |
| Users.BootstrapOnEmptyStore | app/utils/user.py:28-35 | On an empty database the as-written bootstrap fails while the corrected one creates "admin" |
| Users.GetUserById | app/utils/user.py:54-65 | The user with that key, or not-found when absent |
| Users.MatchingUsers | app/utils/user.py:78-82 | Exactly the users whose username contains the non-empty filter case-insensitively and whose status equals the given one, each once |
| Users.MatchingUsersInStorageOrder | app/utils/user.py:78-84 | The filtered users keep the order of the stored rows: they sit at strictly increasing positions of the table (the query has no ORDER BY; storage order is the model's fixed choice) |
| Users.GetUsers | app/utils/user.py:67-90 | A negative offset or size is rejected; otherwise at most `size` users, each passing the filters, forming the window at `(page-1)*size` of the filtered sequence |
| Users.GetUsersPagesDisjoint | app/utils/user.py:84-90 | Two different pages of one listing share no user |
| Users.GetUsersListsEveryMatch | app/utils/user.py:78-90 | Every user passing the filters appears on some page |
| Users.DeleteUser | app/utils/user.py:92-108 | Not-found when absent; otherwise exactly that user is removed, every reference to them is cleared, each ticket whose reference was cleared gets updated_at set to the current time, and all other fields and rows are unchanged |
| Users.DeleteUserValid | app/core/database/models.py:41-43 | Removing a user and clearing references to them keeps every constraint |
| Tickets.CreateTicket | app/utils/ticket.py:12-26 | A missing project or user is rejected; otherwise exactly one ticket is added with a fresh key and the given title, description, project and creator, status defaulting to open, priority medium, no assignee, created_at the current time and updated_at no earlier |
| Tickets.GetTicketById | app/utils/ticket.py:28-49 | The ticket with that key, or not-found when absent |
| Tickets.MatchingTickets | app/utils/ticket.py:66-71 | Exactly the tickets whose project name contains the non-empty filter case-insensitively, each once |
| Tickets.MatchingTicketsInStorageOrder | app/utils/ticket.py:66-73 | The filtered tickets keep the order of the stored rows: they sit at strictly increasing positions of the table |
| Tickets.GetTickets | app/utils/ticket.py:51-79 | A negative offset or size is rejected; otherwise at most `size` tickets passing the project filter, forming the window at `(page-1)*size` |
| Tickets.GetTicketsIgnoresUserName | app/utils/ticket.py:51-79 | The listing is the same whatever user_name is passed |
| Tickets.GetTicketsPagesDisjoint | app/utils/ticket.py:73-79 | Two different pages of one listing share no ticket |
| Tickets.GetTicketsListsEveryMatch | app/utils/ticket.py:66-79 | Every ticket passing the project filter appears on some page |
| Tickets.DeleteTicket | app/utils/ticket.py:81-97 | Not-found when absent; otherwise that ticket and exactly the comments attached to it are removed, all other rows unchanged |
| Tickets.DeletedTicketIsGone | app/utils/ticket.py:82-91 | After deletion the ticket is not found |
| Comments.CreateComment | app/utils/comment.py:14-31 | A missing ticket or user is rejected; otherwise exactly one comment is added with a fresh key, the given content, ticket and user, stamped with the current time |
| Comments.GetCommentById | app/utils/comment.py:34-54 | The comment with that key, or not-found when absent |
| Comments.SortByCreation | app/utils/comment.py:65 | The result is ordered by created_at ascending and is a permutation of the input |
| Comments.GetCommentsByTicketId | app/utils/comment.py:57-67 | Exactly the comments of that ticket, each as often as stored, ascending by created_at, unpaginated |
| Comments.UpdateComment | app/utils/comment.py:70-85 | Not-found when absent; otherwise only the content of that comment changes, its key, ticket, user and created_at kept |
| Comments.DeleteComment | app/utils/comment.py:88-101 | Not-found when absent; otherwise exactly that comment is removed |
| Comments.SerializeComment | app/utils/comment.py:104-112 | comment_id, content and created_at carried through; created_by is the given name, "" by default |
| Comments.DeleteTicketCascades | app/core/database/models.py:79 | After a ticket's deletion each of its comments is not found, the ticket lists none, and every other comment is found unchanged |
| TicketViews.CreateTicket | app/api/v1/ticket_views.py:81-124 | Unknown creator gives user-not-found, else unknown project gives project-not-found, with nothing inserted; on success the stored ticket names the resolved project and creator, has the requested title, description and status (open when none is given), priority medium and no assignee, and the response carries its id, title, description, status and created_at and echoes the requested names |
| TicketViews.Entries | app/api/v1/ticket_views.py:33-45 | One entry per ticket, in order: ticket_id, title, description, status and created_at are the ticket's, project_name its project's name, created_by its creator's username; the listing fails (unexpected) iff some ticket has no creator |
| TicketViews.ListTickets | app/api/v1/ticket_views.py:22-57 | A page or size below 1 is rejected, and only then; otherwise the listing succeeds iff every ticket on the requested page has a creator, the only other failure being unexpected; the entries match the page of tickets one to one, each with the ticket's id, title, description, status and created_at, project_name the project's name and created_by the creator's username |
| TicketViews.ListTicketsSucceeds | app/api/v1/ticket_views.py:22-45 | When every ticket on the requested page has a creator, a listing with page and size at least 1 succeeds, whatever tickets elsewhere lack |
| TicketViews.GetTicketByIdAsWritten | app/api/v1/ticket_views.py:141-162 | As written: succeeds iff the ticket exists and has a creator, otherwise not-found or unexpected; the response carries the ticket's id, title, description, status and created_at, but its created_by is the project's name and its project_name the creator's username |
| TicketViews.SwappedNamesExample | app/api/v1/ticket_views.py:156-157 | On a concrete database the as-written read returns project_name "bob" and created_by "Alpha"; the corrected read returns them the right way round |
| TicketViews.GetTicketById | app/api/v1/ticket_views.py:141-162 | Succeeds iff the ticket exists and has a creator, otherwise not-found or unexpected; the response carries the ticket's id, title, description, status and created_at, project_name its project's name and created_by its creator's username |
| TicketViews.CreatedTicketReadsBack | app/api/v1/ticket_views.py:108-158 | Reading a ticket right after creating it returns exactly the creation response |
| TicketViews.CreatedTicketReadsBackSwapped | app/api/v1/ticket_views.py:108-158 | As written, that read returns the requested creator as project_name and the requested project as created_by |
| UserViews.CreateUser | app/api/v1/user_views.py:35-42 | A new user is created active with the given username and email, or rejected when either is taken |
| UserViews.UpdateUser | app/api/v1/user_views.py:173-194 | Not-found for an unknown user; email and username change only when supplied non-empty, status only when supplied; the update fails iff another user holds the resulting username or email; nothing else changes |
| UserViews.UpdateUserIdempotent | app/api/v1/user_views.py:185-194 | Sending the same update again returns the same user and changes nothing |
| UserViews.EmptyUpdateChangesNothing | app/api/v1/user_views.py:185-190 | An update that supplies nothing returns the user and the store unchanged |
| UserViews.DeleteUser | app/api/v1/user_views.py:220-231 | Deleting a missing user fails and removes nothing; otherwise the user is gone afterwards |
| UserViews.TicketsCreatedBy | app/core/database/models.py:41 | Exactly the tickets whose creator is the user, each once |
| UserViews.TicketsAssignedTo | app/core/database/models.py:42 | Exactly the tickets assigned to the user, each once |
| UserViews.GetUserById | app/api/v1/user_views.py:66-93 | The user, with tickets_created and tickets_assigned present iff their flag is set, holding exactly the user's created and assigned tickets |
| UserViews.CreatedTicketListedUnderCreator | app/api/v1/user_views.py:86-93 | A ticket a user creates is listed among that user's created tickets |
| UserViews.DeletedUserHoldsNoTickets | app/core/database/models.py:41-42 | After a user is deleted no ticket names them as creator or assignee |
| CommentViews.SearchAuthor | app/api/v1/comment_views.py:33-34 | Some user is found iff some username contains the name case-insensitively (any user for an empty name); the one found is the first such user in storage order |
| CommentViews.SearchAuthorIsFirstInStorageOrder | app/api/v1/comment_views.py:33-46 | The author picked is exactly the first stored user, in storage order, whose username passes the case-insensitive substring search |
| CommentViews.CreateComment | app/api/v1/comment_views.py:25-56 | No user found gives not-found with nothing inserted; otherwise the new comment has the path's ticket, the request's content and the found user, and the response echoes the requested name |
| CommentViews.ExactAuthorIsSearched | app/api/v1/comment_views.py:33-34 | A name that is some user's exact username always finds an author |
| CommentViews.ExactUniqueNamePicksThatUser | app/api/v1/comment_views.py:33-46 | When no other username contains the name, the author is the user with exactly that name |
| CommentViews.EmptyNameSearchesFirstUser | app/api/v1/comment_views.py:33-46 | An empty name makes the first stored user the author |
| CommentViews.SubstringSearchMisattributes | app/api/v1/comment_views.py:33-46 | With "bobby" stored before "bob", a comment posted as "bob" is attributed to bobby |
| CommentViews.ViewsOf | app/api/v1/comment_views.py:82 | Each comment is shown with its own fields and its author's display name |
| CommentViews.GetComments | app/api/v1/comment_views.py:69-85 | One entry per comment of the ticket in created_at order; the author shown is the user's username, or "" when the comment has no user |
| CommentViews.CommentIsListed | app/api/v1/comment_views.py:76-82 | Every stored comment appears in its ticket's listing under its author's name |
| CommentViews.CreatedCommentIsListed | app/api/v1/comment_views.py:50-82 | The listing shows a new comment as the creation response did, except that its author is the user the search picked |
| HttpClient.RStripSlash | app/utils/http_client.py:12 | The result is a prefix of the input, does not end in '/', and only '/' was removed |
| HttpClient.LStripSlash | app/utils/http_client.py:12 | The result is a suffix of the input, does not start with '/', and only '/' was removed |
| HttpClient.FullUrl | app/utils/http_client.py:10-14 | With no or an empty base, or a path starting with "http", the path is returned unchanged; otherwise the stripped base, one '/', and the stripped path |
| HttpClient.JoinedUrlShape | app/utils/http_client.py:12 | A joined URL consists of a prefix of the base, one '/', and a suffix of the path; there is no other '/' next to the join point, and the URL ends with the path without its leading slashes |
| Paging.Paginate | app/utils/user.py:84 | A negative offset or size is rejected; otherwise the result is exactly the window of `size` elements at offset `(page-1)*size`, shorter at the end |
| Paging.PagesDisjoint | app/utils/ticket.py:73 | Different pages of a duplicate-free sequence share no element |
| Paging.ConsecutivePages | app/utils/ticket.py:73 | Page p+1 starts where page p ends |
| Text.ILikeIsCaseInsensitiveSubstring | app/utils/user.py:79 | The ILIKE match holds iff the pattern occurs in the value at some position, letter by letter up to ASCII case |

## Left out

- The HTTP layer is not modelled: routing, response building, request ids, status codes and logging. Each endpoint's outcome is an `Ok` value or an error kind.
- The user-not-found branch of `create_comment` answers with status 500 rather than 404. The model reports it as `NotFound(UserEntity)`.
- Async execution is not modelled. The concurrent existence checks in `create_ticket` are read-only and are modelled as sequential.
- The check-then-insert race is a concurrency concern and is left out.
- Sessions, commits, refreshes and eager loading are not modelled. Each operation is one atomic transition of the store.
- UUIDs are fresh naturals taken from a counter.
- `utcnow` is an abstract clock that only moves forward.
- LIKE wildcards `%` and `_` inside a filter are taken literally. Case folding covers ASCII letters only.
- The HTTP client's `get`, the weather service, authentication and configuration are not modelled. They are network I/O or environment-dependent.
- `list_users` passes an `email` argument that `_get_users` does not accept, so every call raises. The listing the endpoint intends is `Users.GetUsers`. It is not modelled separately.
- The `create_user` endpoint is modelled by what it intends. It looks up `user_data.user_id`, which the request schema does not have. It also passes `password_hash` to a function expecting `password`. Both raise before any insert.
- The password argument of `_create_user` is not used by the function and is not modelled.
- Users.CreateUser: as written, `_create_user` always raises `TypeError` before anything is added. It passes `created_at=` (app/utils/user.py:46) to `UserTable`, a dataclass with no such field (app/core/database/models.py:30-39), so its generated constructor rejects every call. The model is the insert the function evidently intends. An as-written member would fail on every input and is not modelled.
- `get_user_by_id` in the user endpoints passes include flags that `_get_user_by_id` does not accept. The model returns the ticket rows the flags ask for.
- The user endpoints (`UserViews`) are modelled as intended, although as written none of them can be reached. app/api/v1/user_views.py:15-16 imports `serialize_user` and `serialize_ticket`, and neither exists, so importing the module fails. app/api/v1/__init__.py:3 imports it, so the whole v1 router fails to load with it, ticket endpoints included.
- The comment endpoints (`CommentViews`) are modelled as intended, although as written they are unreachable: their router is never included in `api_router` (app/api/v1/__init__.py:3-7).
- `_update_comment` and `_delete_comment` set or delete on the query result rather than on the row. `Comments.UpdateComment` and `Comments.DeleteComment` model the intended row semantics, with not-found for an absent comment.
- `_create_ticket` defaults `status` to the empty string, which is not a member of the enum. The model takes `None` as "use the column default, open". This matches the request schema, whose default is open.
- Comments.SortByCreation: comments with equal created_at may come out in either order. The contract does not state stability, because SQL `ORDER BY` does not promise it.
- TicketViews.ListTickets: the listing reads `ticket.created_by_user.username`. A ticket whose creator was deleted has no creator, the read raises, and the model reports it as `Unexpected`.
- TicketViews.ListTickets: a page or size below 1 fails the endpoint's query validation (status 422) before any query runs. The model reports it as `InvalidPagination`, the same kind as a negative OFFSET or LIMIT reaching the database.
- Tickets.CreateTicket: `created_at` is read from the clock when the row is built, and `updated_at` by the column default when the insert is flushed. These are two readings, so the contract promises only that `updated_at` is not earlier. The model takes the second reading one tick later.
- Updating tickets is not modelled. The source defines a `TicketUpdate` schema but no operation that uses it.
- Users.DeleteUser: the schema does not say what happens to rows that reference a deleted user. The model clears those references, as the ORM does by default for a non-cascading relationship. Clearing a ticket reference is an UPDATE, so `updated_at` (app/core/database/models.py:68) is refreshed on exactly those tickets. Comments have no `updated_at` column.

## Findings

| source | as written | input that shows it | evidently intended | confidence | as-written member | corrected member |
|---|---|---|---|---|---|---|
| app/api/v1/ticket_views.py:156-157 | `get_ticket_by_id` puts the project's name in `created_by` and the creator's username in `project_name` | user "bob" opens a ticket in project "Alpha"; reading it back gives project_name "bob", created_by "Alpha" | the same mapping as `list_tickets` and the creation response | high, not executed | TicketViews.GetTicketByIdAsWritten | TicketViews.GetTicketById |
| app/utils/user.py:28-33 | `create_default_user` builds the user without an email, and the email column is NOT NULL | an empty database: the bootstrap of "admin" is rejected at commit | the default user gets some email, modelled as "<name>@localhost" | high, not executed | Users.CreateDefaultUserAsWritten | Users.CreateDefaultUser |

=== FILE: comment_views.dfy ===
/**
 * Decision logic of the comment endpoints (app/api/v1/comment_views.py):
 * resolving the author named in a request, and the author's display name in
 * comment listings.
 */
module CommentViews {
  import opened Wrappers
  import opened Seqs
  import opened Tables
  import opened Text
  import opened Paging
  import opened Models
  import Users
  import Comments

  /** The body of a comment creation request; the author is named, not keyed. */
  datatype CommentCreateRequest = CommentCreateRequest(content: string, createdBy: string)

  /**
   * The author `create_comment` picks: the first user on the first default
   * page (10 users) of the username search, which matches case-insensitive
   * substrings.
   */
  function SearchAuthor(s: Store, name: string): (r: Option<User>)
    requires Valid(s)
    ensures r.Some? <==> exists u :: u in s.users.rows.Values && Users.UserFilter(u, Some(name), None)
    ensures r.Some? ==> r.value in s.users.rows.Values && (name != "" ==> ILike(r.value.username, name))
    ensures r.Some? ==>
      var matches := Users.MatchingUsers(s, Some(name), None);
      |matches| > 0 && r.value == matches[0]
  {
    var matches := Users.MatchingUsers(s, Some(name), None);
    PageArgumentsAccepted(matches, 1, 10);
    match Users.GetUsers(s, Some(name), None, 1, 10)
    case Err(_) => None
    case Ok(us) =>
      if |us| == 0 then None
      else
        assert us[0] == matches[0] && matches[0] in matches;
        Some(us[0])
  }

  /** The author is the first stored user, in storage order, that passes the username search. */
  lemma SearchAuthorIsFirstInStorageOrder(s: Store, name: string)
    requires Valid(s)
    ensures SearchAuthor(s, name) == FindFirst(Rows(s.users), (u: User) => Users.UserFilter(u, Some(name), None))
  {
    var p := (u: User) => Users.UserFilter(u, Some(name), None);
    var m := Users.MatchingUsers(s, Some(name), None);
    assert m == Filter(Rows(s.users), p);
    FilterHeadIsFirst(Rows(s.users), p);
    if |m| > 0 {
      assert m[0] in m;
      assert SearchAuthor(s, name) == Some(m[0]);
    }
  }

  /**
   * `create_comment`: the author is whoever the substring search lists first,
   * and not-found when the search lists nobody; the ticket comes from the
   * path; the response echoes the name from the request.
   */
  function CreateComment(s: Store, ticketId: Id, req: CommentCreateRequest): (r: Result<(Store, Comments.CommentView), Error>)
    requires Valid(s)
    ensures SearchAuthor(s, req.createdBy).None? ==> r == Err(NotFound(UserEntity))
    ensures SearchAuthor(s, req.createdBy).Some? ==> (r.Ok? <==> ticketId in s.tickets.rows)
    ensures SearchAuthor(s, req.createdBy).Some? && r.Err? ==> r.error == IntegrityError
    ensures r.Ok? ==>
      var (s', v) := r.value;
      && SearchAuthor(s, req.createdBy).Some?
      && v.commentId !in s.comments.rows && v.commentId in s'.comments.rows
      && var c := s'.comments.rows[v.commentId];
      && s'.comments.rows == s.comments.rows[v.commentId := c]
      && c.ticketId == ticketId && c.content == req.content
      && c.userId == Some(SearchAuthor(s, req.createdBy).value.userId)
      && v.content == req.content && v.createdBy == req.createdBy && v.createdAt == c.createdAt
      && s'.users == s.users && s'.tickets == s.tickets && s'.projects == s.projects
      && Valid(s')
  {
    match SearchAuthor(s, req.createdBy)
    case None => Err(NotFound(UserEntity))
    case Some(u) =>
      match Comments.CreateComment(s, req.content, ticketId, u.userId)
      case Err(e) => Err(e)
      case Ok((s', c)) => Ok((s', Comments.SerializeComment(c, req.createdBy)))
  }

  /** Whoever has the exact username is found by the search too, so the search never rejects more. */
  lemma ExactAuthorIsSearched(s: Store, name: string)
    requires Valid(s) && Users.UsernameTaken(s, name)
    ensures SearchAuthor(s, name).Some?
  {
    var u := Users.CheckUserExists(s, name).value;
    ExactMatchPassesILike(u.username);
    assert Users.UserFilter(u, Some(name), None);
  }

  /** An empty author name filters nothing: the first stored user becomes the author. */
  lemma EmptyNameSearchesFirstUser(s: Store)
    requires Valid(s) && |s.users.order| > 0
    ensures SearchAuthor(s, "") == Some(s.users.rows[s.users.order[0]])
  {
    var rows := Rows(s.users);
    FilterKeepsFirst(rows, (u: User) => Users.UserFilter(u, Some(""), None));
  }

  /** The display name of a comment's author, or "" once the author is gone. */
  function AuthorName(s: Store, c: Comment): string {
    if c.userId.Some? && c.userId.value in s.users.rows then s.users.rows[c.userId.value].username else ""
  }

  lemma ListedAuthorsExist(s: Store, ticketId: Id, cs: seq<Comment>)
    requires Valid(s)
    requires forall c :: c in cs ==> c in s.comments.rows.Values && c.ticketId == ticketId
    ensures forall i :: 0 <= i < |cs| ==> cs[i].ticketId == ticketId && Refers(cs[i].userId, s.users.rows)
  {
    forall i | 0 <= i < |cs|
      ensures cs[i].ticketId == ticketId && Refers(cs[i].userId, s.users.rows)
    {
      assert cs[i] in cs;
      var k :| k in s.comments.rows && s.comments.rows[k] == cs[i];
    }
  }

  /** `get_comments`: the ticket's comments oldest first, each with its author's username. */
  function GetComments(s: Store, ticketId: Id): (r: seq<Comments.CommentView>)
    requires Valid(s)
    ensures var cs := Comments.GetCommentsByTicketId(s, ticketId);
      && |r| == |cs|
      && forall i :: 0 <= i < |cs| ==>
           && r[i].commentId == cs[i].commentId && r[i].content == cs[i].content
           && r[i].createdAt == cs[i].createdAt
           && cs[i].ticketId == ticketId
           && (cs[i].userId.None? ==> r[i].createdBy == "")
           && (cs[i].userId.Some? ==> r[i].createdBy == s.users.rows[cs[i].userId.value].username)
  {
    var cs := Comments.GetCommentsByTicketId(s, ticketId);
    ListedAuthorsExist(s, ticketId, cs);
    ViewsOf(s, cs)
  }

  /** Each comment serialised with its author's display name. */
  function ViewsOf(s: Store, cs: seq<Comment>): (r: seq<Comments.CommentView>)
    ensures |r| == |cs|
    ensures forall i :: 0 <= i < |cs| ==>
      && r[i].commentId == cs[i].commentId && r[i].content == cs[i].content
      && r[i].createdAt == cs[i].createdAt && r[i].createdBy == AuthorName(s, cs[i])
  {
    if |cs| == 0 then []
    else [Comments.SerializeComment(cs[0], AuthorName(s, cs[0]))] + ViewsOf(s, cs[1..])
  }

  /**
   * The ticket's listing shows a new comment as the creation response did,
   * except that its author is the user the search picked.
   */
  lemma CreatedCommentIsListed(s: Store, ticketId: Id, req: CommentCreateRequest)
    requires Valid(s) && ticketId in s.tickets.rows
    requires exists u :: u in s.users.rows.Values && Users.UserFilter(u, Some(req.createdBy), None)
    ensures var (s', v) := CreateComment(s, ticketId, req).value;
      v.(createdBy := SearchAuthor(s, req.createdBy).value.username) in GetComments(s', ticketId)
  {
    var (s', v) := CreateComment(s, ticketId, req).value;
    var u := SearchAuthor(s, req.createdBy).value;
    var k :| k in s.users.rows && s.users.rows[k] == u;
    var c := s'.comments.rows[v.commentId];
    assert AuthorName(s', c) == u.username;
    CommentIsListed(s', c);
  }

  /** Every stored comment appears in its ticket's listing. */
  lemma CommentIsListed(s: Store, c: Comment)
    requires Valid(s) && c in s.comments.rows.Values
    ensures Comments.SerializeComment(c, AuthorName(s, c)) in GetComments(s, c.ticketId)
  {
    var cs := Comments.GetCommentsByTicketId(s, c.ticketId);
    assert c in cs;
    var i :| 0 <= i < |cs| && cs[i] == c;
    assert GetComments(s, c.ticketId)[i] == Comments.SerializeComment(c, AuthorName(s, c));
  }

  /** When the name is some user's exact username and no one else's substring, that user is the author. */
  lemma ExactUniqueNamePicksThatUser(s: Store, name: string)
    requires Valid(s) && Users.UsernameTaken(s, name)
    requires forall k :: k in s.users.rows && s.users.rows[k].username != name ==>
               !Users.UserFilter(s.users.rows[k], Some(name), None)
    ensures SearchAuthor(s, name) == Users.CheckUserExists(s, name)
  {
    ExactAuthorIsSearched(s, name);
    var u := SearchAuthor(s, name).value;
    var k :| k in s.users.rows && s.users.rows[k] == u;
  }

  /** Users "bobby" (stored first) and "bob". */
  function TwoBobs(): Store {
    Store(
      Table(map[1 := User(1, "bobby", "bobby@example.com", Active, 2),
                3 := User(3, "bob", "bob@example.com", Active, 4)], [1, 3]),
      Table(map[0 := Project(0, "Alpha")], [0]),
      Table(map[5 := Ticket(5, "Fix bug", None, Open, Medium, None, 0, 0, 0, Some(3), None)], [5]),
      Table(map[], []),
      6, 1)
  }

  lemma TwoBobsTables()
    ensures TablesValid(TwoBobs())
  {
    var s := TwoBobs();
    assert Distinct(s.users.order);
    assert Tables.WellFormed(s.users, UserKey);
    assert Tables.WellFormed(s.projects, ProjectKey);
    assert Tables.WellFormed(s.tickets, TicketKey);
    assert Tables.WellFormed(s.comments, CommentKey);
  }

  lemma TwoBobsUnique()
    ensures UniqueColumns(TwoBobs())
  {
    var rows := TwoBobs().users.rows;
    assert rows.Keys == {1, 3};
    forall a, b | a in rows && b in rows && a != b
      ensures rows[a].username != rows[b].username && rows[a].email != rows[b].email
    {
      assert (a == 1 && b == 3) || (a == 3 && b == 1);
    }
  }

  lemma TwoBobsReferences()
    ensures KeysDrawn(TwoBobs()) && ForeignKeys(TwoBobs())
  {
    var s := TwoBobs();
    assert s.users.rows.Keys == {1, 3};
    assert s.tickets.rows.Keys == {5};
  }

  lemma TwoBobsValid()
    ensures Valid(TwoBobs())
  {
    TwoBobsTables();
    TwoBobsUnique();
    TwoBobsReferences();
  }

  /** The substring search for "bob" lists "bobby" first. */
  lemma TwoBobsSearch()
    ensures Valid(TwoBobs())
    ensures SearchAuthor(TwoBobs(), "bob") == Some(TwoBobs().users.rows[1])
  {
    TwoBobsValid();
    TwoBobsFirstMatch();
    var s := TwoBobs();
    assert Users.MatchingUsers(s, Some("bob"), None)[0] in Users.MatchingUsers(s, Some("bob"), None);
  }

  lemma BobbyMatchesBob()
    ensures ILike("bobby", "bob")
  {
    assert Lower("bobby") == "bobby";
    assert Lower("bob") == "bob";
    assert StartsWith("bobby", "bob");
  }

  /** "bobby", stored first, heads the substring matches for "bob". */
  lemma TwoBobsFirstMatch()
    ensures Valid(TwoBobs())
    ensures var matches := Users.MatchingUsers(TwoBobs(), Some("bob"), None);
      |matches| > 0 && matches[0] == TwoBobs().users.rows[1]
  {
    TwoBobsValid();
    var s := TwoBobs();
    assert Rows(s.users)[0] == s.users.rows[1];
    BobbyMatchesBob();
    assert s.users.rows[1].username == "bobby";
    FilterKeepsFirst(Rows(s.users), (u: User) => Users.UserFilter(u, Some("bob"), None));
  }

  /** The exact lookup of "bob" finds bob. */
  lemma TwoBobsExact()
    ensures Valid(TwoBobs())
    ensures Users.CheckUserExists(TwoBobs(), "bob") == Some(TwoBobs().users.rows[3])
  {
    TwoBobsValid();
    assert TwoBobs().users.rows[3].username == "bob";
  }

  /**
   * With "bobby" stored before "bob", a comment posted as "bob" is attributed
   * to bobby, although the exact lookup would pick bob.
   */
  lemma SubstringSearchMisattributes()
    ensures Valid(TwoBobs())
    ensures SearchAuthor(TwoBobs(), "bob") == Some(TwoBobs().users.rows[1])
    ensures Users.CheckUserExists(TwoBobs(), "bob") == Some(TwoBobs().users.rows[3])
  {
    TwoBobsSearch();
    TwoBobsExact();
  }
}

=== FILE: comments.dfy ===
/** Comment creation, lookup, listing, update, deletion and serialisation (app/utils/comment.py). */
module Comments {
  import opened Wrappers
  import opened Seqs
  import opened Tables
  import opened Models
  import Tickets

  lemma AddCommentValid(s: Store, c: Comment)
    requires Valid(s) && c.commentId == s.nextId
    requires c.ticketId in s.tickets.rows && Refers(c.userId, s.users.rows)
    ensures Valid(s.(comments := Insert(s.comments, c.commentId, c), nextId := s.nextId + 1, clock := s.clock + 1))
  {
    var s' := s.(comments := Insert(s.comments, c.commentId, c), nextId := s.nextId + 1, clock := s.clock + 1);
    InsertWellFormed(s.comments, CommentKey, c.commentId, c);
    assert TablesValid(s');
    assert KeysDrawn(s');
    assert UniqueColumns(s') by {
      assert s'.users == s.users && s'.projects == s.projects;
    }
    assert ForeignKeys(s') by {
      assert s'.users == s.users && s'.tickets == s.tickets;
    }
  }

  /** Every comment row has a key drawn before `nextId` and names an existing ticket and, if any, user of `s`. */
  ghost predicate CommentsFit(s: Store, rows: map<Id, Comment>, nextId: Id) {
    forall k :: k in rows ==> k < nextId && rows[k].ticketId in s.tickets.rows && Refers(rows[k].userId, s.users.rows)
  }

  /**
   * Swapping in a well-formed comment table whose keys were drawn and whose
   * rows name existing tickets and users keeps the store valid.
   */
  lemma WithCommentsValid(s: Store, t: Table<Comment>, nextId: Id, clock: Time)
    requires Valid(s) && Tables.WellFormed(t, CommentKey) && nextId >= s.nextId
    requires CommentsFit(s, t.rows, nextId)
    ensures Valid(s.(comments := t, nextId := nextId, clock := clock))
  {
    var s' := s.(comments := t, nextId := nextId, clock := clock);
    assert TablesValid(s');
    assert KeysDrawn(s');
    assert UniqueColumns(s') by {
      assert s'.users == s.users && s'.projects == s.projects;
    }
    assert ForeignKeys(s') by {
      assert s'.users == s.users && s'.tickets == s.tickets;
    }
  }

  /**
   * `_create_comment`: inserts a comment with a fresh id, stamped with the
   * current time; the foreign keys reject an unknown ticket or user.
   */
  function CreateComment(s: Store, content: string, ticketId: Id, userId: Id): (r: Result<(Store, Comment), Error>)
    requires Valid(s)
    ensures r.Err? <==> ticketId !in s.tickets.rows || userId !in s.users.rows
    ensures r.Err? ==> r.error == IntegrityError
    ensures r.Ok? ==>
      var (s', c) := r.value;
      && c.commentId !in s.comments.rows
      && c.content == content && c.ticketId == ticketId && c.userId == Some(userId)
      && c.createdAt == s.clock && s'.clock > s.clock
      && s'.comments.rows == s.comments.rows[c.commentId := c]
      && s'.users == s.users && s'.projects == s.projects && s'.tickets == s.tickets
      && Valid(s')
  {
    if ticketId !in s.tickets.rows || userId !in s.users.rows then
      Err(IntegrityError)
    else
      var c := Comment(s.nextId, content, s.clock, ticketId, Some(userId));
      AddCommentValid(s, c);
      Ok((s.(comments := Insert(s.comments, c.commentId, c), nextId := s.nextId + 1, clock := s.clock + 1), c))
  }

  /** `_get_comment_by_id`: the comment with key `id`, or not-found. */
  function GetCommentById(s: Store, id: Id): (r: Result<Comment, Error>)
    requires Valid(s)
    ensures r.Ok? <==> id in s.comments.rows
    ensures r.Ok? ==> r.value.commentId == id && r.value in s.comments.rows.Values
    ensures r.Err? ==> r.error == NotFound(CommentEntity)
  {
    if id in s.comments.rows then Ok(s.comments.rows[id]) else Err(NotFound(CommentEntity))
  }

  /** Ascending `created_at`. */
  ghost predicate SortedByCreation(cs: seq<Comment>) {
    forall i, j :: 0 <= i < j < |cs| ==> cs[i].createdAt <= cs[j].createdAt
  }

  /** Places `c` into an ascending sequence, before the first comment not older than it. */
  function InsertByCreation(c: Comment, cs: seq<Comment>): (r: seq<Comment>)
    requires SortedByCreation(cs)
    ensures SortedByCreation(r)
    ensures multiset(r) == multiset(cs) + multiset{c}
    ensures |r| > 0 && (r[0] == c || (|cs| > 0 && r[0] == cs[0]))
  {
    if |cs| == 0 then [c]
    else if c.createdAt <= cs[0].createdAt then [c] + cs
    else
      SortedTail(cs);
      var rest := InsertByCreation(c, cs[1..]);
      assert cs == [cs[0]] + cs[1..];
      assert cs[0].createdAt <= rest[0].createdAt;
      SortedCons(cs[0], rest);
      [cs[0]] + rest
  }

  lemma SortedTail(cs: seq<Comment>)
    requires SortedByCreation(cs) && |cs| > 0
    ensures SortedByCreation(cs[1..])
    ensures |cs| > 1 ==> cs[0].createdAt <= cs[1..][0].createdAt
  {
  }

  lemma SortedCons(x: Comment, cs: seq<Comment>)
    requires SortedByCreation(cs)
    requires |cs| > 0 ==> x.createdAt <= cs[0].createdAt
    ensures SortedByCreation([x] + cs)
  {
    assert forall i :: 0 <= i < |cs| ==> cs[0].createdAt <= cs[i].createdAt;
  }

  /** Orders comments by ascending `created_at` (an insertion sort). */
  function SortByCreation(cs: seq<Comment>): (r: seq<Comment>)
    ensures SortedByCreation(r)
    ensures multiset(r) == multiset(cs)
  {
    if |cs| == 0 then []
    else
      assert cs == [cs[0]] + cs[1..];
      InsertByCreation(cs[0], SortByCreation(cs[1..]))
  }

  /** The comments attached to `ticketId`, in storage order. */
  function CommentsOfTicket(s: Store, ticketId: Id): (cs: seq<Comment>)
    requires Valid(s)
    ensures forall c :: c in cs <==> c in s.comments.rows.Values && c.ticketId == ticketId
    ensures Distinct(cs)
  {
    RowsOfWellFormed(s.comments, CommentKey);
    FilterDistinct(Rows(s.comments), (c: Comment) => c.ticketId == ticketId);
    Filter(Rows(s.comments), (c: Comment) => c.ticketId == ticketId)
  }

  /**
   * `_get_comments_by_ticket_id`: every comment of the ticket, each once,
   * ordered by ascending `created_at`, without pagination.
   */
  function GetCommentsByTicketId(s: Store, ticketId: Id): (r: seq<Comment>)
    requires Valid(s)
    ensures SortedByCreation(r)
    ensures multiset(r) == multiset(CommentsOfTicket(s, ticketId))
    ensures forall c :: c in r <==> c in s.comments.rows.Values && c.ticketId == ticketId
  {
    var cs := CommentsOfTicket(s, ticketId);
    var r := SortByCreation(cs);
    assert forall c :: c in r <==> c in multiset(cs);
    r
  }

  /**
   * `_update_comment`, on the stored row: replaces the content of the
   * comment and nothing else.
   */
  function UpdateComment(s: Store, id: Id, content: string): (r: Result<(Store, Comment), Error>)
    requires Valid(s)
    ensures r.Err? <==> id !in s.comments.rows
    ensures r.Err? ==> r.error == NotFound(CommentEntity)
    ensures r.Ok? ==>
      var (s', c) := r.value;
      var before := s.comments.rows[id];
      && c.content == content
      && c.commentId == id && c.ticketId == before.ticketId && c.userId == before.userId && c.createdAt == before.createdAt
      && s'.comments.rows == s.comments.rows[id := c]
      && s'.comments.order == s.comments.order
      && s'.users == s.users && s'.projects == s.projects && s'.tickets == s.tickets
      && Valid(s')
  {
    if id !in s.comments.rows then
      Err(NotFound(CommentEntity))
    else
      var c := s.comments.rows[id].(content := content);
      ReplaceCommentValid(s, c);
      Ok((s.(comments := Update(s.comments, id, c)), c))
  }

  lemma ReplaceCommentValid(s: Store, c: Comment)
    requires Valid(s) && c.commentId in s.comments.rows
    requires c.ticketId == s.comments.rows[c.commentId].ticketId && c.userId == s.comments.rows[c.commentId].userId
    ensures Valid(s.(comments := Update(s.comments, c.commentId, c)))
  {
    var t := Update(s.comments, c.commentId, c);
    UpdateWellFormed(s.comments, CommentKey, c.commentId, c);
    assert CommentsFit(s, s.comments.rows, s.nextId);
    forall k | k in t.rows
      ensures k < s.nextId && t.rows[k].ticketId in s.tickets.rows && Refers(t.rows[k].userId, s.users.rows)
    {
      if k != c.commentId {
        assert t.rows[k] == s.comments.rows[k];
      }
    }
    WithCommentsValid(s, t, s.nextId, s.clock);
    assert s.(comments := t) == s.(comments := t, nextId := s.nextId, clock := s.clock);
  }

  lemma RemoveCommentValid(s: Store, id: Id)
    requires Valid(s)
    ensures Valid(s.(comments := RemoveAll(s.comments, {id})))
  {
    var s' := s.(comments := RemoveAll(s.comments, {id}));
    RemoveAllWellFormed(s.comments, CommentKey, {id});
    assert TablesValid(s');
    assert KeysDrawn(s');
    assert UniqueColumns(s');
    assert ForeignKeys(s');
  }

  /** `_delete_comment`, on the stored row: removes exactly that comment. */
  function DeleteComment(s: Store, id: Id): (r: Result<Store, Error>)
    requires Valid(s)
    ensures r.Err? <==> id !in s.comments.rows
    ensures r.Err? ==> r.error == NotFound(CommentEntity)
    ensures r.Ok? ==>
      && r.value.comments.rows == s.comments.rows - {id}
      && r.value.users == s.users && r.value.projects == s.projects && r.value.tickets == s.tickets
      && Valid(r.value)
  {
    if id !in s.comments.rows then
      Err(NotFound(CommentEntity))
    else
      RemoveCommentValid(s, id);
      Ok(s.(comments := RemoveAll(s.comments, {id})))
  }

  /** A comment as the API returns it; `createdBy` is the author's display name. */
  datatype CommentView = CommentView(commentId: Id, content: string, createdAt: Time, createdBy: string)

  /** `serialize_comment`: the display name defaults to the empty string. */
  function SerializeComment(c: Comment, username: string := ""): (v: CommentView)
    ensures v.commentId == c.commentId && v.content == c.content && v.createdAt == c.createdAt
    ensures v.createdBy == username
  {
    CommentView(c.commentId, c.content, c.createdAt, username)
  }

  /**
   * Deleting a ticket removes every one of its comments, and only those: each
   * is not found afterwards, the ticket lists no comments, and every other
   * comment is still found unchanged.
   */
  lemma DeleteTicketCascades(s: Store, id: Id)
    requires Valid(s) && Tickets.DeleteTicket(s, id).Ok?
    ensures var s' := Tickets.DeleteTicket(s, id).value;
      && (forall k :: k in s.comments.rows && s.comments.rows[k].ticketId == id ==>
            GetCommentById(s', k) == Err(NotFound(CommentEntity)))
      && (forall k :: k in s.comments.rows && s.comments.rows[k].ticketId != id ==>
            GetCommentById(s', k) == GetCommentById(s, k))
      && forall c :: c !in GetCommentsByTicketId(s', id)
  {
    var s' := Tickets.DeleteTicket(s, id).value;
    forall c | c in s'.comments.rows.Values
      ensures c.ticketId != id
    {
      var k :| k in s'.comments.rows && s'.comments.rows[k] == c;
      assert s.comments.rows[k] == c;
    }
  }
}

=== FILE: http_client.dfy ===
/**
 * URL joining of the HTTP client (`AsyncHTTPClient._full_url`): a relative
 * path is appended to the configured base URL with exactly one '/' between
 * them; an absolute path, or a missing base URL, is used as it is.
 */
module HttpClient {
  import opened Wrappers
  import opened Text

  /** `s` without its trailing '/' characters (Python's `s.rstrip('/')`). */
  function RStripSlash(s: string): (r: string)
    ensures |r| <= |s| && r == s[..|r|]
    ensures |r| == 0 || r[|r| - 1] != '/'
    ensures forall i :: |r| <= i < |s| ==> s[i] == '/'
  {
    if |s| > 0 && s[|s| - 1] == '/' then RStripSlash(s[..|s| - 1]) else s
  }

  /** `s` without its leading '/' characters (Python's `s.lstrip('/')`). */
  function LStripSlash(s: string): (r: string)
    ensures |r| <= |s| && r == s[|s| - |r|..]
    ensures |r| == 0 || r[0] != '/'
    ensures forall i :: 0 <= i < |s| - |r| ==> s[i] == '/'
  {
    if |s| > 0 && s[0] == '/' then LStripSlash(s[1..]) else s
  }

  /** The base URL takes part in the join: it is set and not empty (Python truthiness). */
  predicate HasBase(baseUrl: Option<string>) {
    baseUrl.Some? && baseUrl.value != ""
  }

  /** The URL requested for `path` by a client configured with `baseUrl`. */
  function FullUrl(baseUrl: Option<string>, path: string): (r: string)
    ensures !HasBase(baseUrl) || StartsWith(path, "http") ==> r == path
    ensures HasBase(baseUrl) && !StartsWith(path, "http") ==>
      var head, tail := RStripSlash(baseUrl.value), LStripSlash(path);
      && r == head + "/" + tail
      && r[|head|] == '/'
  {
    if HasBase(baseUrl) && !StartsWith(path, "http") then
      RStripSlash(baseUrl.value) + "/" + LStripSlash(path)
    else
      path
  }

  /**
   * `url` joins `base` and `path` at index `k`: a prefix of `base` from which
   * only '/' characters were dropped, one '/', then the rest of `path` after
   * its leading '/' characters; neither neighbour of the separator is a '/'.
   */
  ghost predicate JoinsAt(url: string, base: string, path: string, k: int) {
    && 0 <= k < |url|
    && url[k] == '/'
    && (k == 0 || url[k - 1] != '/')
    && (k + 1 == |url| || url[k + 1] != '/')
    && k <= |base| && url[..k] == base[..k]
    && (forall i :: k <= i < |base| ==> base[i] == '/')
    && url[k + 1..] == LStripSlash(path)
  }

  /**
   * A joined URL never holds two slashes at the join point, and ends with the
   * path stripped of its leading slashes.
   */
  lemma JoinedUrlShape(baseUrl: Option<string>, path: string)
    requires HasBase(baseUrl) && !StartsWith(path, "http")
    ensures exists k :: JoinsAt(FullUrl(baseUrl, path), baseUrl.value, path, k)
  {
    var base := baseUrl.value;
    var head, tail := RStripSlash(base), LStripSlash(path);
    var r := head + "/" + tail;
    assert r == FullUrl(baseUrl, path);
    var k := |head|;
    assert r[..k] == head;
    assert head == base[..k];
    assert r[k + 1..] == tail;
    assert r[k] == '/';
    assert k == 0 || r[k - 1] == head[k - 1];
    assert k + 1 == |r| || r[k + 1] == tail[0];
    assert JoinsAt(r, base, path, k);
  }
}

=== FILE: models.dfy ===
/**
 * The persistence schema: the enumerations, one row type per table, the
 * store that holds the four tables, and the constraints the schema declares
 * (primary keys, unique columns, foreign keys).
 */
module Models {
  import opened Wrappers
  import opened Tables

  datatype TicketStatus = Open | InProgress | Closed
  datatype UserStatus = Active | Inactive
  datatype TicketPriority = Low | Medium | High | Critical

  /** The API value of each enumeration member. */
  function TicketStatusValue(s: TicketStatus): string {
    match s
    case Open => "open"
    case InProgress => "in_progress"
    case Closed => "closed"
  }

  function UserStatusValue(s: UserStatus): string {
    match s
    case Active => "active"
    case Inactive => "inactive"
  }

  function TicketPriorityValue(p: TicketPriority): string {
    match p
    case Low => "low"
    case Medium => "medium"
    case High => "high"
    case Critical => "critical"
  }

  /** Reads a stored or requested status; only the three member values are accepted. */
  function ParseTicketStatus(v: string): (r: Option<TicketStatus>)
    ensures r.Some? <==> v == "open" || v == "in_progress" || v == "closed"
    ensures forall s :: r == Some(s) <==> TicketStatusValue(s) == v
  {
    if v == "open" then Some(Open)
    else if v == "in_progress" then Some(InProgress)
    else if v == "closed" then Some(Closed)
    else None
  }

  function ParseUserStatus(v: string): (r: Option<UserStatus>)
    ensures r.Some? <==> v == "active" || v == "inactive"
    ensures forall s :: r == Some(s) <==> UserStatusValue(s) == v
  {
    if v == "active" then Some(Active)
    else if v == "inactive" then Some(Inactive)
    else None
  }

  function ParseTicketPriority(v: string): (r: Option<TicketPriority>)
    ensures r.Some? <==> v == "low" || v == "medium" || v == "high" || v == "critical"
    ensures forall p :: r == Some(p) <==> TicketPriorityValue(p) == v
  {
    if v == "low" then Some(Low)
    else if v == "medium" then Some(Medium)
    else if v == "high" then Some(High)
    else if v == "critical" then Some(Critical)
    else None
  }

  /** Column defaults of the schema. */
  const DefaultTicketStatus: TicketStatus := Open
  const DefaultTicketPriority: TicketPriority := Medium
  const DefaultUserStatus: UserStatus := Active

  /** Timestamps are ticks of an abstract clock that only moves forward. */
  type Time = nat

  datatype User = User(userId: Id, username: string, email: string, status: UserStatus, apiKey: Id)

  datatype Project = Project(projectId: Id, name: string)

  /**
   * A ticket. `createdBy` and `assigneeId` are nullable foreign keys: the
   * creator reference is cleared when the creating user is deleted.
   */
  datatype Ticket = Ticket(
    ticketId: Id,
    title: string,
    description: Option<string>,
    status: TicketStatus,
    priority: TicketPriority,
    storyPoints: Option<int>,
    createdAt: Time,
    updatedAt: Time,
    projectId: Id,
    createdBy: Option<Id>,
    assigneeId: Option<Id>)

  datatype Comment = Comment(commentId: Id, content: string, createdAt: Time, ticketId: Id, userId: Option<Id>)

  function UserKey(u: User): Id { u.userId }
  function ProjectKey(p: Project): Id { p.projectId }
  function TicketKey(t: Ticket): Id { t.ticketId }
  function CommentKey(c: Comment): Id { c.commentId }

  datatype Entity = UserEntity | ProjectEntity | TicketEntity | CommentEntity

  datatype Error =
    | NotFound(entity: Entity)   // a lookup by id or name found no row
    | IntegrityError             // the database rejects a write (unique, foreign-key or not-null constraint)
    | InvalidPagination          // the database rejects a negative OFFSET or LIMIT
    | Unexpected                 // any other exception, reported as a generic failure

  /**
   * The database. `nextId` is the source of fresh keys (every key in use is
   * below it) and `clock` the current time.
   */
  datatype Store = Store(
    users: Table<User>,
    projects: Table<Project>,
    tickets: Table<Ticket>,
    comments: Table<Comment>,
    nextId: Id,
    clock: Time)

  function EmptyStore(): Store {
    Store(EmptyTable(), EmptyTable(), EmptyTable(), EmptyTable(), 0, 0)
  }

  ghost predicate TablesValid(s: Store) {
    && Tables.WellFormed(s.users, UserKey)
    && Tables.WellFormed(s.projects, ProjectKey)
    && Tables.WellFormed(s.tickets, TicketKey)
    && Tables.WellFormed(s.comments, CommentKey)
  }

  /** Every key in use was drawn before `nextId`. */
  ghost predicate KeysDrawn(s: Store) {
    && (forall k :: k in s.users.rows ==> k < s.nextId)
    && (forall k :: k in s.projects.rows ==> k < s.nextId)
    && (forall k :: k in s.tickets.rows ==> k < s.nextId)
    && (forall k :: k in s.comments.rows ==> k < s.nextId)
  }

  /** The unique columns: `users.username`, `users.email`, `projects.name`. */
  ghost predicate UniqueColumns(s: Store) {
    && (forall a, b :: a in s.users.rows && b in s.users.rows && s.users.rows[a].username == s.users.rows[b].username ==> a == b)
    && (forall a, b :: a in s.users.rows && b in s.users.rows && s.users.rows[a].email == s.users.rows[b].email ==> a == b)
    && (forall a, b :: a in s.projects.rows && b in s.projects.rows && s.projects.rows[a].name == s.projects.rows[b].name ==> a == b)
  }

  predicate Refers<R>(ref: Option<Id>, rows: map<Id, R>) {
    ref.Some? ==> ref.value in rows
  }

  /** Every foreign key that is set names an existing row. */
  ghost predicate ForeignKeys(s: Store) {
    && (forall k :: k in s.tickets.rows ==>
          && s.tickets.rows[k].projectId in s.projects.rows
          && Refers(s.tickets.rows[k].createdBy, s.users.rows)
          && Refers(s.tickets.rows[k].assigneeId, s.users.rows))
    && (forall k :: k in s.comments.rows ==>
          && s.comments.rows[k].ticketId in s.tickets.rows
          && Refers(s.comments.rows[k].userId, s.users.rows))
  }

  /** The constraints every reachable database state satisfies. */
  ghost predicate Valid(s: Store) {
    TablesValid(s) && KeysDrawn(s) && UniqueColumns(s) && ForeignKeys(s)
  }

  lemma EmptyStoreValid()
    ensures Valid(EmptyStore())
  {
  }
}

=== FILE: paging.dfy ===
/**
 * Offset pagination as the listing queries use it: page `page` of size
 * `size` is `OFFSET (page - 1) * size LIMIT size` over the filtered rows.
 */
module Paging {
  import opened Wrappers
  import opened Seqs

  function Min(a: int, b: int): int {
    if a <= b then a else b
  }

  /** The row offset of a page. */
  function Offset(page: int, size: int): int {
    (page - 1) * size
  }

  /**
   * `w` is exactly page `page` of `xs`: the run of at most `size` elements of
   * `xs` that starts at the page's offset.
   */
  ghost predicate IsPage<T>(w: seq<T>, xs: seq<T>, page: int, size: int) {
    var off := Offset(page, size);
    && off >= 0 && size >= 0
    && |w| == (if off >= |xs| then 0 else Min(size, |xs| - off))
    && forall i :: 0 <= i < |w| ==> w[i] == xs[off + i]
  }

  /**
   * `OFFSET off LIMIT size`, or `None` when the database rejects a negative
   * offset or limit.
   */
  function Paginate<T>(xs: seq<T>, page: int, size: int): (r: Option<seq<T>>)
    ensures r.None? <==> Offset(page, size) < 0 || size < 0
    ensures r.Some? ==> IsPage(r.value, xs, page, size)
  {
    var off := Offset(page, size);
    if off < 0 || size < 0 then None
    else if off >= |xs| then Some([])
    else Some(xs[off..off + Min(size, |xs| - off)])
  }

  /** Valid page numbers and sizes, as the listing endpoints accept them (`ge=1`). */
  lemma PageArgumentsAccepted<T>(xs: seq<T>, page: int, size: int)
    requires page >= 1 && size >= 1
    ensures Paginate(xs, page, size).Some?
    ensures |Paginate(xs, page, size).value| <= size
  {
    assert Offset(page, size) >= 0 by {
      assert (page - 1) * size >= 0 * size;
    }
  }

  /** Later pages start no earlier than earlier pages end. */
  lemma OffsetsOrdered(p: int, q: int, size: int)
    requires 1 <= p < q && size >= 0
    ensures Offset(p, size) + size <= Offset(q, size)
  {
    var d := q - 1 - p;
    assert (q - 1) * size == (p - 1) * size + size + d * size;
    assert d * size >= 0;
  }

  /** Two different pages of a repetition-free sequence share no element. */
  lemma PagesDisjoint<T>(xs: seq<T>, w1: seq<T>, w2: seq<T>, p: int, q: int, size: int)
    requires Distinct(xs)
    requires 1 <= p < q && size >= 1
    requires IsPage(w1, xs, p, size) && IsPage(w2, xs, q, size)
    ensures forall x :: x in w1 ==> x !in w2
  {
    var o1, o2 := Offset(p, size), Offset(q, size);
    OffsetsOrdered(p, q, size);
    forall x | x in w1
      ensures x !in w2
    {
      var i :| 0 <= i < |w1| && w1[i] == x;
      forall j | 0 <= j < |w2|
        ensures w2[j] != x
      {
        assert w1[i] == xs[o1 + i] && w2[j] == xs[o2 + j];
        assert o1 + i < o2 + j;
      }
    }
  }

  /** Every element sits on the page its index determines. */
  lemma EveryElementOnItsPage<T>(xs: seq<T>, w: seq<T>, j: int, size: int)
    requires 0 <= j < |xs| && size >= 1
    requires IsPage(w, xs, j / size + 1, size)
    ensures xs[j] in w
  {
    var off := Offset(j / size + 1, size);
    assert off == (j / size) * size;
    assert off <= j < off + size;
    assert w[j - off] == xs[j];
  }

  /** The page `j / size + 1` of a listing exists and holds its `j`-th element. */
  lemma ElementOnItsPage<T>(xs: seq<T>, j: int, size: int)
    requires 0 <= j < |xs| && size >= 1
    ensures j / size + 1 >= 1
    ensures Paginate(xs, j / size + 1, size).Some?
    ensures xs[j] in Paginate(xs, j / size + 1, size).value
  {
    PageArgumentsAccepted(xs, j / size + 1, size);
    EveryElementOnItsPage(xs, Paginate(xs, j / size + 1, size).value, j, size);
  }

  /** Pages `p` and `p + 1` together are the window of twice the size at `p`'s offset. */
  lemma ConsecutivePages<T>(xs: seq<T>, w1: seq<T>, w2: seq<T>, p: int, size: int)
    requires p >= 1 && size >= 1
    requires IsPage(w1, xs, p, size) && IsPage(w2, xs, p + 1, size)
    ensures |w1| < size ==> w2 == []
    ensures w1 + w2 == xs[Min(Offset(p, size), |xs|)..Min(Offset(p, size) + 2 * size, |xs|)]
  {
    var o := Offset(p, size);
    assert Offset(p + 1, size) == o + size;
    assert o >= 0 by {
      assert (p - 1) * size >= 0 * size;
    }
  }
}

=== FILE: projects.dfy ===
/** Project lookups and the bootstrap of the default project (app/utils/project.py). */
module Projects {
  import opened Wrappers
  import opened Seqs
  import opened Tables
  import opened Models

  const DefaultProjectName: string := "default_project"

  /** Some project is called exactly `name`. */
  predicate ProjectNamed(s: Store, name: string) {
    exists k | k in s.projects.rows :: s.projects.rows[k].name == name
  }

  /** `check_project_exists`: the project whose name equals `name` (case-sensitive), if any. */
  function CheckProjectExists(s: Store, name: string): (r: Option<Project>)
    requires Valid(s)
    ensures r.Some? <==> ProjectNamed(s, name)
    ensures r.Some? ==> r.value.name == name && r.value.projectId in s.projects.rows
                        && s.projects.rows[r.value.projectId] == r.value
    ensures r.Some? ==> forall k :: k in s.projects.rows && s.projects.rows[k].name == name ==> k == r.value.projectId
  {
    RowsOfWellFormed(s.projects, ProjectKey);
    assert forall k :: k in s.projects.rows ==> s.projects.rows[k] in s.projects.rows.Values;
    FindFirst(Rows(s.projects), (p: Project) => p.name == name)
  }

  /** Adding a project with a fresh key and an unused name keeps the store valid. */
  lemma AddProjectValid(s: Store, p: Project)
    requires Valid(s) && p.projectId == s.nextId && !ProjectNamed(s, p.name)
    ensures Valid(s.(projects := Insert(s.projects, p.projectId, p), nextId := s.nextId + 1))
  {
    var s' := s.(projects := Insert(s.projects, p.projectId, p), nextId := s.nextId + 1);
    InsertWellFormed(s.projects, ProjectKey, p.projectId, p);
    assert TablesValid(s');
    assert KeysDrawn(s');
    var rows := s'.projects.rows;
    forall a, b | a in rows && b in rows && a != b
      ensures rows[a].name != rows[b].name
    {
      if a == p.projectId {
        assert rows[b] == s.projects.rows[b];
      } else if b == p.projectId {
        assert rows[a] == s.projects.rows[a];
      } else {
        assert rows[a] == s.projects.rows[a] && rows[b] == s.projects.rows[b];
      }
    }
    assert UniqueColumns(s') by {
      assert s'.users == s.users;
    }
    assert ForeignKeys(s') by {
      forall k | k in s'.tickets.rows
        ensures s'.tickets.rows[k].projectId in rows
      {
      }
    }
  }

  /**
   * `create_default_project`: returns the project called `name`, inserting it
   * with a fresh key when it is missing.
   */
  function CreateDefaultProject(s: Store, name: string := DefaultProjectName): (r: (Store, Project))
    requires Valid(s)
    ensures Valid(r.0)
    ensures r.1.name == name && r.1.projectId in r.0.projects.rows && r.0.projects.rows[r.1.projectId] == r.1
    ensures ProjectNamed(s, name) ==> r.0 == s
    ensures !ProjectNamed(s, name) ==>
      && r.1.projectId !in s.projects.rows
      && r.0.projects.rows == s.projects.rows[r.1.projectId := r.1]
      && r.0.users == s.users && r.0.tickets == s.tickets && r.0.comments == s.comments
  {
    match CheckProjectExists(s, name)
    case Some(p) => (s, p)
    case None =>
      var p := Project(s.nextId, name);
      AddProjectValid(s, p);
      (s.(projects := Insert(s.projects, p.projectId, p), nextId := s.nextId + 1), p)
  }

  /**
   * The bootstrap is idempotent: a second call returns the same project and
   * store, and exactly one project carries the name.
   */
  lemma CreateDefaultProjectIdempotent(s: Store, name: string)
    requires Valid(s)
    ensures var (s1, p1) := CreateDefaultProject(s, name);
      && CreateDefaultProject(s1, name) == (s1, p1)
      && forall k :: k in s1.projects.rows && s1.projects.rows[k].name == name ==> k == p1.projectId
  {
    var (s1, p1) := CreateDefaultProject(s, name);
    assert ProjectNamed(s1, name) by {
      assert s1.projects.rows[p1.projectId].name == name;
    }
  }
}

=== FILE: seqs.dfy ===
/** Generic facts about sequences used by the table and listing operations. */
module Seqs {
  import opened Wrappers

  /** No element occurs twice. */
  ghost predicate Distinct<T>(s: seq<T>) {
    forall i, j :: 0 <= i < j < |s| ==> s[i] != s[j]
  }

  /** The elements of `xs` that satisfy `p`, in their original order. */
  function Filter<T(!new)>(xs: seq<T>, p: T -> bool): (ys: seq<T>)
    ensures |ys| <= |xs|
    ensures forall y :: y in ys <==> y in xs && p(y)
    ensures multiset(ys) <= multiset(xs)
  {
    if |xs| == 0 then []
    else
      assert xs == [xs[0]] + xs[1..];
      (if p(xs[0]) then [xs[0]] else []) + Filter(xs[1..], p)
  }

  /** An element that passes and comes first stays first. */
  lemma FilterKeepsFirst<T(!new)>(xs: seq<T>, p: T -> bool)
    requires |xs| > 0 && p(xs[0])
    ensures |Filter(xs, p)| > 0 && Filter(xs, p)[0] == xs[0]
  {
  }

  /** `idx` places each element of `ys` at a position of `xs`, at strictly increasing positions. */
  ghost predicate Embeds<T>(idx: seq<int>, ys: seq<T>, xs: seq<T>) {
    && |idx| == |ys|
    && (forall i :: 0 <= i < |idx| ==> 0 <= idx[i] < |xs| && ys[i] == xs[idx[i]])
    && (forall i, j :: 0 <= i < j < |idx| ==> idx[i] < idx[j])
  }

  function Shift(idx: seq<int>): (r: seq<int>)
    ensures |r| == |idx| && forall i :: 0 <= i < |idx| ==> r[i] == idx[i] + 1
  {
    seq(|idx|, i requires 0 <= i < |idx| => idx[i] + 1)
  }

  lemma EmbedsInTail<T>(idx: seq<int>, ys: seq<T>, xs: seq<T>)
    requires |xs| > 0 && Embeds(idx, ys, xs[1..])
    ensures Embeds(Shift(idx), ys, xs)
    ensures forall i :: 0 <= i < |idx| ==> Shift(idx)[i] >= 1
  {
    forall i | 0 <= i < |idx|
      ensures ys[i] == xs[Shift(idx)[i]]
    {
      assert xs[1..][idx[i]] == xs[idx[i] + 1];
    }
  }

  lemma EmbedsCons<T>(idx: seq<int>, ys: seq<T>, xs: seq<T>)
    requires |xs| > 0 && Embeds(idx, ys, xs)
    requires forall i :: 0 <= i < |idx| ==> idx[i] >= 1
    ensures Embeds([0] + idx, [xs[0]] + ys, xs)
  {
    var idx', ys' := [0] + idx, [xs[0]] + ys;
    assert forall i :: 1 <= i < |idx'| ==> idx'[i] == idx[i - 1] && ys'[i] == ys[i - 1];
  }

  /** `Filter` keeps the relative order of the elements it keeps: its result is a subsequence of `xs`. */
  lemma {:induction false} FilterKeepsOrder<T(!new)>(xs: seq<T>, p: T -> bool)
    ensures exists idx :: Embeds(idx, Filter(xs, p), xs)
  {
    if |xs| == 0 {
      assert Embeds([], Filter(xs, p), xs);
    } else {
      FilterKeepsOrder(xs[1..], p);
      var rest := Filter(xs[1..], p);
      var idx :| Embeds(idx, rest, xs[1..]);
      EmbedsInTail(idx, rest, xs);
      if p(xs[0]) {
        EmbedsCons(Shift(idx), rest, xs);
        assert Filter(xs, p) == [xs[0]] + rest;
      } else {
        assert Filter(xs, p) == rest;
      }
    }
  }

  /** The head of `Filter` is the first element of `xs` that passes, and it has one exactly when one passes. */
  lemma {:induction false} FilterHeadIsFirst<T(!new)>(xs: seq<T>, p: T -> bool)
    ensures |Filter(xs, p)| > 0 <==> FindFirst(xs, p).Some?
    ensures |Filter(xs, p)| > 0 ==> Filter(xs, p)[0] == FindFirst(xs, p).value
  {
    if |xs| > 0 {
      if p(xs[0]) {
        FilterKeepsFirst(xs, p);
      } else {
        FilterHeadIsFirst(xs[1..], p);
        assert Filter(xs, p) == Filter(xs[1..], p);
      }
    }
  }

  lemma {:induction false} FilterDistinct<T(!new)>(xs: seq<T>, p: T -> bool)
    requires Distinct(xs)
    ensures Distinct(Filter(xs, p))
  {
    if |xs| > 0 {
      FilterDistinct(xs[1..], p);
      var rest := Filter(xs[1..], p);
      assert xs[0] !in xs[1..] by {
        forall i | 0 <= i < |xs[1..]|
          ensures xs[1..][i] != xs[0]
        {
          assert xs[1..][i] == xs[1 + i];
        }
      }
      assert xs[0] !in rest;
    }
  }

  /** The first element of `xs` that satisfies `p`, if any. */
  function FindFirst<T(!new,==)>(xs: seq<T>, p: T -> bool): (r: Option<T>)
    ensures r.Some? ==> r.value in xs && p(r.value)
    ensures r.None? <==> forall x :: x in xs ==> !p(x)
    ensures r.Some? ==> exists i :: 0 <= i < |xs| && xs[i] == r.value && forall j :: 0 <= j < i ==> !p(xs[j])
  {
    if |xs| == 0 then None
    else if p(xs[0]) then
      assert xs[0] == xs[0];
      Some(xs[0])
    else
      var r := FindFirst(xs[1..], p);
      assert forall x :: x in xs ==> x == xs[0] || x in xs[1..];
      if r.Some? then
        var i :| 0 <= i < |xs[1..]| && xs[1..][i] == r.value && forall j :: 0 <= j < i ==> !p(xs[1..][j]);
        assert xs[i + 1] == r.value;
        assert forall j :: 0 <= j < i + 1 ==> !p(xs[j]) by {
          forall j | 0 <= j < i + 1
            ensures !p(xs[j])
          {
            if j > 0 {
              assert xs[j] == xs[1..][j - 1];
            }
          }
        }
        r
      else
        r
  }
}

=== FILE: tables.dfy ===
/**
 * One relational table: rows keyed by primary key, plus the sequence of keys
 * in insertion order, which fixes the order in which queries return rows.
 */
module Tables {
  import opened Wrappers
  import opened Seqs

  /** A primary key. The source draws UUIDs; the model draws fresh naturals. */
  type Id = nat

  datatype Table<R> = Table(rows: map<Id, R>, order: seq<Id>)

  function EmptyTable<R>(): Table<R> {
    Table(map[], [])
  }

  /**
   * The table is well formed for the key column `key`: the order lists each
   * stored key exactly once, and every row is stored under its own key.
   */
  ghost predicate WellFormed<R>(t: Table<R>, key: R -> Id) {
    && Distinct(t.order)
    && (forall k :: k in t.rows <==> k in t.order)
    && (forall k :: k in t.rows ==> key(t.rows[k]) == k)
  }

  /** The rows in insertion order (an unordered `SELECT` over the table). */
  function Rows<R>(t: Table<R>): seq<R>
    requires forall k :: k in t.order ==> k in t.rows
  {
    seq(|t.order|, i requires 0 <= i < |t.order| => t.rows[t.order[i]])
  }

  function Insert<R>(t: Table<R>, k: Id, r: R): Table<R> {
    Table(t.rows[k := r], t.order + [k])
  }

  function Update<R>(t: Table<R>, k: Id, r: R): Table<R> {
    Table(t.rows[k := r], t.order)
  }

  function RemoveAll<R>(t: Table<R>, ks: set<Id>): Table<R> {
    Table(t.rows - ks, Filter(t.order, k => k !in ks))
  }

  /** Rewrites every row with `f`, keeping keys and order. */
  function MapRows<R>(t: Table<R>, f: R -> R): Table<R> {
    Table(map k | k in t.rows :: f(t.rows[k]), t.order)
  }

  /** The rows of a valid table are its stored rows, each once. */
  lemma RowsOfWellFormed<R>(t: Table<R>, key: R -> Id)
    requires WellFormed(t, key)
    ensures forall r :: r in Rows(t) <==> r in t.rows.Values
    ensures Distinct(Rows(t))
  {
    var rs := Rows(t);
    forall r | r in t.rows.Values
      ensures r in rs
    {
      var k :| k in t.rows && t.rows[k] == r;
      var i :| 0 <= i < |t.order| && t.order[i] == k;
      assert rs[i] == r;
    }
    forall i, j | 0 <= i < j < |rs|
      ensures rs[i] != rs[j]
    {
      assert key(rs[i]) == t.order[i];
      assert key(rs[j]) == t.order[j];
    }
  }

  lemma InsertWellFormed<R>(t: Table<R>, key: R -> Id, k: Id, r: R)
    requires WellFormed(t, key) && k !in t.rows && key(r) == k
    ensures WellFormed(Insert(t, k, r), key)
    ensures Rows(Insert(t, k, r)) == Rows(t) + [r]
  {
    var t' := Insert(t, k, r);
    assert k !in t.order;
    forall i, j | 0 <= i < j < |t'.order|
      ensures t'.order[i] != t'.order[j]
    {
      if j == |t.order| {
        assert t'.order[i] == t.order[i];
      }
    }
  }

  lemma UpdateWellFormed<R>(t: Table<R>, key: R -> Id, k: Id, r: R)
    requires WellFormed(t, key) && k in t.rows && key(r) == k
    ensures WellFormed(Update(t, k, r), key)
  {
  }

  lemma RemoveAllWellFormed<R>(t: Table<R>, key: R -> Id, ks: set<Id>)
    requires WellFormed(t, key)
    ensures WellFormed(RemoveAll(t, ks), key)
  {
    FilterDistinct(t.order, k => k !in ks);
  }

  lemma MapRowsWellFormed<R>(t: Table<R>, key: R -> Id, f: R -> R)
    requires WellFormed(t, key)
    requires forall k :: k in t.rows ==> key(f(t.rows[k])) == k
    ensures WellFormed(MapRows(t, f), key)
  {
  }
}

=== FILE: text.dfy ===
/**
 * String matching as the store's queries use it: exact equality for name
 * lookups, and SQL `ILIKE '%x%'` (case-insensitive substring) for filters.
 * Case folding is ASCII only; `%` and `_` inside a filter are literal.
 */
module Text {

  /** ASCII lower-casing of one character. */
  function LowerChar(c: char): char {
    if 'A' <= c <= 'Z' then (c as int - 'A' as int + 'a' as int) as char else c
  }

  function Lower(s: string): string {
    seq(|s|, i requires 0 <= i < |s| => LowerChar(s[i]))
  }

  predicate StartsWith(s: string, prefix: string) {
    |prefix| <= |s| && s[..|prefix|] == prefix
  }

  /** Executable substring test: does `part` start at some position of `s`? */
  predicate Contains(s: string, part: string)
    decreases |s|
  {
    StartsWith(s, part) || (|s| > 0 && Contains(s[1..], part))
  }

  /** `part` occurs in `s` starting at index `i`. */
  ghost predicate OccursAt(s: string, part: string, i: int) {
    0 <= i && i + |part| <= |s| && s[i..i + |part|] == part
  }

  lemma {:induction false} ContainsHasOccurrence(s: string, part: string)
    requires Contains(s, part)
    ensures exists i :: OccursAt(s, part, i)
    decreases |s|
  {
    if StartsWith(s, part) {
      assert OccursAt(s, part, 0);
    } else {
      ContainsHasOccurrence(s[1..], part);
      var i :| OccursAt(s[1..], part, i);
      assert s[i + 1..i + 1 + |part|] == s[1..][i..i + |part|];
      assert OccursAt(s, part, i + 1);
    }
  }

  lemma {:induction false} OccurrenceIsContained(s: string, part: string, i: int)
    requires OccursAt(s, part, i)
    ensures Contains(s, part)
    decreases i
  {
    if i == 0 {
      assert StartsWith(s, part);
    } else {
      assert s[1..][i - 1..i - 1 + |part|] == s[i..i + |part|];
      OccurrenceIsContained(s[1..], part, i - 1);
    }
  }

  /** `Contains` is exactly substring occurrence. */
  lemma ContainsIsOccurrence(s: string, part: string)
    ensures Contains(s, part) <==> exists i :: OccursAt(s, part, i)
  {
    if Contains(s, part) {
      ContainsHasOccurrence(s, part);
    }
    if exists i :: OccursAt(s, part, i) {
      var i :| OccursAt(s, part, i);
      OccurrenceIsContained(s, part, i);
    }
  }

  /** SQL `value ILIKE '%pattern%'`, with ASCII case folding. */
  predicate ILike(value: string, pattern: string) {
    Contains(Lower(value), Lower(pattern))
  }

  /** Two characters are equal up to ASCII case. */
  predicate SameLetter(a: char, b: char) {
    LowerChar(a) == LowerChar(b)
  }

  /** `pattern` matches `value` at position `i`, ignoring case. */
  ghost predicate MatchesAtIgnoringCase(value: string, pattern: string, i: int) {
    0 <= i && i + |pattern| <= |value|
    && forall j :: 0 <= j < |pattern| ==> SameLetter(value[i + j], pattern[j])
  }

  /** `ILike` is a case-insensitive substring test. */
  lemma ILikeIsCaseInsensitiveSubstring(value: string, pattern: string)
    ensures ILike(value, pattern) <==> exists i :: MatchesAtIgnoringCase(value, pattern, i)
  {
    var lv, lp := Lower(value), Lower(pattern);
    ContainsIsOccurrence(lv, lp);
    forall i | 0 <= i && i + |pattern| <= |value|
      ensures OccursAt(lv, lp, i) <==> MatchesAtIgnoringCase(value, pattern, i)
    {
      if MatchesAtIgnoringCase(value, pattern, i) {
        assert lv[i..i + |lp|] == lp by {
          forall j | 0 <= j < |lp|
            ensures lv[i..i + |lp|][j] == lp[j]
          {
            assert SameLetter(value[i + j], pattern[j]);
          }
        }
      }
      if OccursAt(lv, lp, i) {
        forall j | 0 <= j < |pattern|
          ensures SameLetter(value[i + j], pattern[j])
        {
          assert lv[i..i + |lp|][j] == lp[j];
        }
      }
    }
    if ILike(value, pattern) {
      var i :| OccursAt(lv, lp, i);
      assert MatchesAtIgnoringCase(value, pattern, i);
    }
    if exists i :: MatchesAtIgnoringCase(value, pattern, i) {
      var i :| MatchesAtIgnoringCase(value, pattern, i);
      assert OccursAt(lv, lp, i);
    }
  }

  /** An exact name always passes the `ILIKE` filter built from it. */
  lemma ExactMatchPassesILike(value: string)
    ensures ILike(value, value)
  {
    var lv := Lower(value);
    assert StartsWith(lv, lv) by {
      assert lv[..|lv|] == lv;
    }
  }
}

=== FILE: ticket_views.dfy ===
/**
 * Decision logic of the ticket endpoints (app/api/v1/ticket_views.py):
 * existence gating on creation and the mapping of stored tickets to the
 * entries the API returns. HTTP plumbing is not modelled.
 */
module TicketViews {
  import opened Wrappers
  import opened Tables
  import opened Paging
  import opened Models
  import Users
  import Projects
  import Tickets

  /** The body of a ticket creation request; projects and users are named, not keyed. */
  datatype TicketCreateRequest = TicketCreateRequest(
    title: string,
    description: Option<string>,
    status: Option<TicketStatus>,
    projectName: string,
    createdBy: string)

  /** A ticket as the API returns it. */
  datatype TicketEntry = TicketEntry(
    ticketId: Id,
    title: string,
    description: Option<string>,
    status: TicketStatus,
    projectName: string,
    createdBy: string,
    createdAt: Time)

  /**
   * `create_ticket`: resolves the creator by username and the project by name,
   * fails with not-found (creator first) before any insert when either is
   * missing, then inserts the ticket. The response echoes the requested names.
   */
  function CreateTicket(s: Store, req: TicketCreateRequest): (r: Result<(Store, TicketEntry), Error>)
    requires Valid(s)
    ensures r.Ok? <==> Users.UsernameTaken(s, req.createdBy) && Projects.ProjectNamed(s, req.projectName)
    ensures !Users.UsernameTaken(s, req.createdBy) ==> r == Err(NotFound(UserEntity))
    ensures Users.UsernameTaken(s, req.createdBy) && !Projects.ProjectNamed(s, req.projectName) ==>
              r == Err(NotFound(ProjectEntity))
    ensures r.Ok? ==>
      var (s', e) := r.value;
      && e.ticketId !in s.tickets.rows && e.ticketId in s'.tickets.rows
      && var t := s'.tickets.rows[e.ticketId];
      && s'.tickets.rows == s.tickets.rows[e.ticketId := t]
      && t.projectId in s.projects.rows && s.projects.rows[t.projectId].name == req.projectName
      && t.createdBy.Some? && t.createdBy.value in s.users.rows
      && s.users.rows[t.createdBy.value].username == req.createdBy
      && t.title == req.title && t.description == req.description
      && (req.status.Some? ==> t.status == req.status.value)
      && (req.status.None? ==> t.status == Open)
      && t.priority == Medium && t.assigneeId.None?
      && e.ticketId == t.ticketId
      && e.projectName == req.projectName && e.createdBy == req.createdBy
      && e.title == t.title && e.description == t.description && e.status == t.status
      && e.createdAt == t.createdAt
      && s'.users == s.users && s'.projects == s.projects && s'.comments == s.comments
      && Valid(s')
  {
    var user := Users.CheckUserExists(s, req.createdBy);
    var project := Projects.CheckProjectExists(s, req.projectName);
    if user.None? then Err(NotFound(UserEntity))
    else if project.None? then Err(NotFound(ProjectEntity))
    else
      match Tickets.CreateTicket(s, req.title, req.description, project.value.projectId, user.value.userId, req.status)
      case Err(e) => Err(e)
      case Ok((s', t)) =>
        Ok((s', TicketEntry(t.ticketId, t.title, t.description, t.status, req.projectName, req.createdBy, t.createdAt)))
  }

  /** The creator's username, when the ticket still has a creator. */
  function CreatorName(s: Store, t: Ticket): Option<string> {
    if t.createdBy.Some? && t.createdBy.value in s.users.rows then Some(s.users.rows[t.createdBy.value].username)
    else None
  }

  /** The entry of one ticket, or `None` when its project or creator is missing. */
  function EntryFor(s: Store, t: Ticket): Option<TicketEntry> {
    match CreatorName(s, t)
    case None => None
    case Some(creator) =>
      if t.projectId in s.projects.rows then
        Some(TicketEntry(t.ticketId, t.title, t.description, t.status,
                         s.projects.rows[t.projectId].name, creator, t.createdAt))
      else None
  }

  /** The entries of a page of tickets; reading a missing relation fails the whole listing. */
  function Entries(s: Store, ts: seq<Ticket>): (r: Result<seq<TicketEntry>, Error>)
    ensures r.Ok? <==> forall t :: t in ts ==> EntryFor(s, t).Some?
    ensures r.Err? ==> r.error == Unexpected
    ensures r.Ok? ==> |r.value| == |ts|
    ensures r.Ok? ==> forall i :: 0 <= i < |ts| ==>
      && r.value[i].ticketId == ts[i].ticketId && r.value[i].title == ts[i].title
      && r.value[i].description == ts[i].description
      && r.value[i].status == ts[i].status && r.value[i].createdAt == ts[i].createdAt
      && ts[i].projectId in s.projects.rows && r.value[i].projectName == s.projects.rows[ts[i].projectId].name
      && ts[i].createdBy.Some? && ts[i].createdBy.value in s.users.rows
      && r.value[i].createdBy == s.users.rows[ts[i].createdBy.value].username
  {
    if |ts| == 0 then Ok([])
    else
      match EntryFor(s, ts[0])
      case None => Err(Unexpected)
      case Some(e) =>
        match Entries(s, ts[1..])
        case Err(err) => Err(err)
        case Ok(rest) =>
          assert forall t :: t in ts ==> t == ts[0] || t in ts[1..];
          assert forall i :: 1 <= i < |ts| ==> ts[i] == ts[1..][i - 1];
          Ok([e] + rest)
  }

  /**
   * `list_tickets`: the endpoint rejects a page or size below 1 before any
   * query runs; otherwise a page of `_get_tickets`, each entry carrying the
   * name of the ticket's project and the username of its creator.
   */
  function ListTickets(s: Store, projectName: Option<string>, userName: Option<string>, page: int, size: int)
    : (r: Result<seq<TicketEntry>, Error>)
    requires Valid(s)
    ensures page < 1 || size < 1 <==> r == Err(InvalidPagination)
    ensures r.Err? && r.error != InvalidPagination ==> r.error == Unexpected
    ensures page >= 1 && size >= 1 ==>
      && Tickets.GetTickets(s, projectName, userName, page, size).Ok?
      && (r.Ok? <==> forall t :: t in Tickets.GetTickets(s, projectName, userName, page, size).value ==> t.createdBy.Some?)
    ensures r.Ok? ==>
      && Tickets.GetTickets(s, projectName, userName, page, size).Ok?
      && var ts := Tickets.GetTickets(s, projectName, userName, page, size).value;
      && |r.value| == |ts|
      && forall i :: 0 <= i < |ts| ==>
           && r.value[i].ticketId == ts[i].ticketId && r.value[i].title == ts[i].title
           && r.value[i].description == ts[i].description
           && r.value[i].status == ts[i].status && r.value[i].createdAt == ts[i].createdAt
           && ts[i].projectId in s.projects.rows
           && r.value[i].projectName == s.projects.rows[ts[i].projectId].name
           && ts[i].createdBy.Some? && ts[i].createdBy.value in s.users.rows
           && r.value[i].createdBy == s.users.rows[ts[i].createdBy.value].username
  {
    if page < 1 || size < 1 then Err(InvalidPagination)
    else
      PageArgumentsAccepted(Tickets.MatchingTickets(s, projectName), page, size);
      StoredTicketsHaveEntries(s);
      match Tickets.GetTickets(s, projectName, userName, page, size)
      case Err(e) => Err(e)
      case Ok(ts) => Entries(s, ts)
  }

  /** A listing whose page holds only tickets with creators succeeds for valid page arguments. */
  lemma ListTicketsSucceeds(s: Store, projectName: Option<string>, userName: Option<string>, page: int, size: int)
    requires Valid(s) && page >= 1 && size >= 1
    requires Tickets.GetTickets(s, projectName, userName, page, size).Ok?
    requires forall t :: t in Tickets.GetTickets(s, projectName, userName, page, size).value ==> t.createdBy.Some?
    ensures ListTickets(s, projectName, userName, page, size).Ok?
  {
  }

  /** A stored ticket has an entry exactly when it has a creator. */
  lemma StoredTicketsHaveEntries(s: Store)
    requires Valid(s)
    ensures forall t :: t in s.tickets.rows.Values ==> (EntryFor(s, t).Some? <==> t.createdBy.Some?)
  {
    forall t | t in s.tickets.rows.Values
      ensures EntryFor(s, t).Some? <==> t.createdBy.Some?
    {
      var k :| k in s.tickets.rows && s.tickets.rows[k] == t;
      assert Refers(t.createdBy, s.users.rows);
    }
  }

  /** `get_ticket_by_id` with the names in their intended fields. */
  function GetTicketById(s: Store, id: Id): (r: Result<TicketEntry, Error>)
    requires Valid(s)
    ensures id !in s.tickets.rows ==> r == Err(NotFound(TicketEntity))
    ensures r.Ok? <==> id in s.tickets.rows && s.tickets.rows[id].createdBy.Some?
    ensures r.Err? ==> r.error == NotFound(TicketEntity) || r.error == Unexpected
    ensures r.Ok? ==>
      var t := s.tickets.rows[id];
      && id in s.tickets.rows && r.value.ticketId == id
      && r.value.title == t.title && r.value.description == t.description
      && r.value.status == t.status && r.value.createdAt == t.createdAt
      && r.value.projectName == s.projects.rows[t.projectId].name
      && t.createdBy.Some? && r.value.createdBy == s.users.rows[t.createdBy.value].username
  {
    match Tickets.GetTicketById(s, id)
    case Err(e) => Err(e)
    case Ok(t) =>
      match EntryFor(s, t)
      case None => Err(Unexpected)
      case Some(e) => Ok(e)
  }

  /**
   * `get_ticket_by_id` as written: the response puts the project's name under
   * `created_by` and the creator's username under `project_name`.
   */
  function GetTicketByIdAsWritten(s: Store, id: Id): (r: Result<TicketEntry, Error>)
    requires Valid(s)
    ensures id !in s.tickets.rows ==> r == Err(NotFound(TicketEntity))
    ensures r.Ok? <==> id in s.tickets.rows && s.tickets.rows[id].createdBy.Some?
    ensures r.Err? ==> r.error == NotFound(TicketEntity) || r.error == Unexpected
    ensures r.Ok? ==>
      var t := s.tickets.rows[id];
      && id in s.tickets.rows && r.value.ticketId == id
      && r.value.title == t.title && r.value.description == t.description
      && r.value.status == t.status && r.value.createdAt == t.createdAt
      && r.value.createdBy == s.projects.rows[t.projectId].name
      && t.createdBy.Some? && r.value.projectName == s.users.rows[t.createdBy.value].username
  {
    match GetTicketById(s, id)
    case Err(e) => Err(e)
    case Ok(e) => Ok(e.(projectName := e.createdBy, createdBy := e.projectName))
  }

  /** Reading a ticket back right after its creation returns the creation response. */
  lemma CreatedTicketReadsBack(s: Store, req: TicketCreateRequest)
    requires Valid(s) && Users.UsernameTaken(s, req.createdBy) && Projects.ProjectNamed(s, req.projectName)
    ensures var (s', e) := CreateTicket(s, req).value;
      GetTicketById(s', e.ticketId) == Ok(e)
  {
    var (s', e) := CreateTicket(s, req).value;
    var t := s'.tickets.rows[e.ticketId];
    assert CreatorName(s', t) == Some(req.createdBy);
  }

  /**
   * Read back as written, a freshly created ticket reports its creator as
   * the project and its project as the creator.
   */
  lemma CreatedTicketReadsBackSwapped(s: Store, req: TicketCreateRequest)
    requires Valid(s) && Users.UsernameTaken(s, req.createdBy) && Projects.ProjectNamed(s, req.projectName)
    ensures var (s', e) := CreateTicket(s, req).value;
      && GetTicketByIdAsWritten(s', e.ticketId).Ok?
      && GetTicketByIdAsWritten(s', e.ticketId).value.projectName == req.createdBy
      && GetTicketByIdAsWritten(s', e.ticketId).value.createdBy == req.projectName
  {
    CreatedTicketReadsBack(s, req);
  }

  /** One user "bob", one project "Alpha" and one ticket bob opened in it. */
  function ExampleStore(): Store {
    Store(
      Table(map[1 := User(1, "bob", "bob@example.com", Active, 2)], [1]),
      Table(map[0 := Project(0, "Alpha")], [0]),
      Table(map[3 := Ticket(3, "Fix bug", None, Open, Medium, None, 0, 0, 0, Some(1), None)], [3]),
      Table(map[], []),
      4, 1)
  }

  lemma ExampleStoreTables()
    ensures TablesValid(ExampleStore())
  {
    var s := ExampleStore();
    assert Tables.WellFormed(s.users, UserKey);
    assert Tables.WellFormed(s.projects, ProjectKey);
    assert Tables.WellFormed(s.tickets, TicketKey);
    assert Tables.WellFormed(s.comments, CommentKey);
  }

  lemma ExampleStoreValid()
    ensures Valid(ExampleStore())
  {
    ExampleStoreTables();
    ExampleStoreReferences();
    assert UniqueColumns(ExampleStore());
  }

  lemma ExampleStoreReferences()
    ensures KeysDrawn(ExampleStore()) && ForeignKeys(ExampleStore())
  {
    var s := ExampleStore();
    assert s.users.rows.Keys == {1};
    assert s.tickets.rows.Keys == {3};
  }

  /** Read back as written, bob's ticket in "Alpha" names project "bob" and creator "Alpha". */
  lemma SwappedNamesExample()
    ensures Valid(ExampleStore())
    ensures GetTicketByIdAsWritten(ExampleStore(), 3) == Ok(TicketEntry(3, "Fix bug", None, Open, "bob", "Alpha", 0))
    ensures GetTicketById(ExampleStore(), 3) == Ok(TicketEntry(3, "Fix bug", None, Open, "Alpha", "bob", 0))
  {
    ExampleStoreValid();
    var s := ExampleStore();
    assert Tickets.GetTicketById(s, 3) == Ok(s.tickets.rows[3]);
  }
}

=== FILE: tickets.dfy ===
/** Ticket creation, lookup, listing and deletion (app/utils/ticket.py). */
module Tickets {
  import opened Wrappers
  import opened Seqs
  import opened Tables
  import opened Text
  import opened Paging
  import opened Models

  /**
   * The row `_create_ticket` inserts, with the schema's column defaults for
   * what it does not set: status open when none is given, priority medium, no
   * story points, no assignee. `created_at` is read from the clock when the
   * row is built and `updated_at` by the column default when it is flushed,
   * two separate readings.
   */
  function NewTicket(id: Id, title: string, description: Option<string>, status: Option<TicketStatus>,
                     projectId: Id, createdBy: Id, built: Time, flushed: Time): Ticket
  {
    Ticket(id, title, description,
           if status.Some? then status.value else DefaultTicketStatus,
           DefaultTicketPriority, None, built, flushed, projectId, Some(createdBy), None)
  }

  lemma AddTicketValid(s: Store, t: Ticket)
    requires Valid(s) && t.ticketId == s.nextId
    requires t.projectId in s.projects.rows
    requires Refers(t.createdBy, s.users.rows) && Refers(t.assigneeId, s.users.rows)
    ensures Valid(s.(tickets := Insert(s.tickets, t.ticketId, t), nextId := s.nextId + 1, clock := s.clock + 2))
  {
    var s' := s.(tickets := Insert(s.tickets, t.ticketId, t), nextId := s.nextId + 1, clock := s.clock + 2);
    InsertWellFormed(s.tickets, TicketKey, t.ticketId, t);
    assert TablesValid(s');
    assert KeysDrawn(s');
    assert UniqueColumns(s') by {
      assert s'.users == s.users && s'.projects == s.projects;
    }
    AddTicketForeignKeys(s, t);
  }

  lemma AddTicketForeignKeys(s: Store, t: Ticket)
    requires ForeignKeys(s)
    requires t.projectId in s.projects.rows
    requires Refers(t.createdBy, s.users.rows) && Refers(t.assigneeId, s.users.rows)
    ensures ForeignKeys(s.(tickets := Insert(s.tickets, t.ticketId, t), nextId := s.nextId + 1, clock := s.clock + 2))
  {
    var rows := s.tickets.rows[t.ticketId := t];
    forall k | k in rows
      ensures rows[k].projectId in s.projects.rows
      ensures Refers(rows[k].createdBy, s.users.rows) && Refers(rows[k].assigneeId, s.users.rows)
    {
      if k != t.ticketId {
        assert rows[k] == s.tickets.rows[k];
      }
    }
    forall k | k in s.comments.rows
      ensures s.comments.rows[k].ticketId in rows
    {
    }
  }

  /**
   * `_create_ticket`: inserts a ticket with a fresh id for an already
   * resolved project and creator; the foreign keys reject unknown ids.
   */
  function CreateTicket(s: Store, title: string, description: Option<string>, projectId: Id, userId: Id,
                        status: Option<TicketStatus>): (r: Result<(Store, Ticket), Error>)
    requires Valid(s)
    ensures r.Err? <==> projectId !in s.projects.rows || userId !in s.users.rows
    ensures r.Err? ==> r.error == IntegrityError
    ensures r.Ok? ==>
      var (s', t) := r.value;
      && t.ticketId !in s.tickets.rows
      && t.title == title && t.description == description
      && (status.Some? ==> t.status == status.value)
      && (status.None? ==> t.status == Open)
      && t.priority == Medium && t.storyPoints.None? && t.assigneeId.None?
      && t.projectId == projectId && t.createdBy == Some(userId)
      && t.createdAt == s.clock && t.createdAt <= t.updatedAt < s'.clock
      && s'.tickets.rows == s.tickets.rows[t.ticketId := t]
      && s'.users == s.users && s'.projects == s.projects && s'.comments == s.comments
      && Valid(s')
  {
    if projectId !in s.projects.rows || userId !in s.users.rows then
      Err(IntegrityError)
    else
      var t := NewTicket(s.nextId, title, description, status, projectId, userId, s.clock, s.clock + 1);
      AddTicketValid(s, t);
      Ok((s.(tickets := Insert(s.tickets, t.ticketId, t), nextId := s.nextId + 1, clock := s.clock + 2), t))
  }

  /** `_get_ticket_by_id`: the ticket with key `id`, or not-found. */
  function GetTicketById(s: Store, id: Id): (r: Result<Ticket, Error>)
    requires Valid(s)
    ensures r.Ok? <==> id in s.tickets.rows
    ensures r.Ok? ==> r.value.ticketId == id && r.value in s.tickets.rows.Values
    ensures r.Err? ==> r.error == NotFound(TicketEntity)
  {
    if id in s.tickets.rows then Ok(s.tickets.rows[id]) else Err(NotFound(TicketEntity))
  }

  /** A created ticket reads back with the title, description and status it was created with. */
  lemma CreatedTicketReadsBack(s: Store, title: string, description: Option<string>, projectId: Id, userId: Id,
                               status: TicketStatus)
    requires Valid(s)
    requires CreateTicket(s, title, description, projectId, userId, Some(status)).Ok?
    ensures var (s', t) := CreateTicket(s, title, description, projectId, userId, Some(status)).value;
      && GetTicketById(s', t.ticketId).Ok?
      && var got := GetTicketById(s', t.ticketId).value;
      got.title == title && got.description == description && got.status == status
  {
  }

  /**
   * The `project_name` filter: a non-empty filter keeps tickets joined to a
   * project whose name contains it case-insensitively (an inner join, so a
   * ticket without a project is dropped).
   */
  predicate TicketFilter(s: Store, t: Ticket, projectName: Option<string>) {
    projectName.Some? && projectName.value != "" ==>
      t.projectId in s.projects.rows && ILike(s.projects.rows[t.projectId].name, projectName.value)
  }

  /** All tickets passing the filter, in storage order. */
  function MatchingTickets(s: Store, projectName: Option<string>): (ts: seq<Ticket>)
    requires Valid(s)
    ensures forall t :: t in ts <==> t in s.tickets.rows.Values && TicketFilter(s, t, projectName)
    ensures Distinct(ts)
  {
    RowsOfWellFormed(s.tickets, TicketKey);
    FilterDistinct(Rows(s.tickets), (t: Ticket) => TicketFilter(s, t, projectName));
    Filter(Rows(s.tickets), (t: Ticket) => TicketFilter(s, t, projectName))
  }

  /** The matches keep storage order: they are a subsequence of the stored rows. */
  lemma MatchingTicketsInStorageOrder(s: Store, projectName: Option<string>)
    requires Valid(s)
    ensures exists idx :: Embeds(idx, MatchingTickets(s, projectName), Rows(s.tickets))
  {
    var p := (t: Ticket) => TicketFilter(s, t, projectName);
    FilterKeepsOrder(Rows(s.tickets), p);
    var idx :| Embeds(idx, Filter(Rows(s.tickets), p), Rows(s.tickets));
    assert MatchingTickets(s, projectName) == Filter(Rows(s.tickets), p);
    assert Embeds(idx, MatchingTickets(s, projectName), Rows(s.tickets));
  }

  /**
   * `_get_tickets`: one page of the tickets passing the `project_name`
   * filter. `userName` is accepted and never used.
   */
  function GetTickets(s: Store, projectName: Option<string>, userName: Option<string>, page: int, size: int)
    : (r: Result<seq<Ticket>, Error>)
    requires Valid(s)
    ensures r.Err? <==> Offset(page, size) < 0 || size < 0
    ensures r.Err? ==> r.error == InvalidPagination
    ensures r.Ok? ==> |r.value| <= size
    ensures r.Ok? ==> forall t :: t in r.value ==> t in s.tickets.rows.Values && TicketFilter(s, t, projectName)
    ensures r.Ok? ==> IsPage(r.value, MatchingTickets(s, projectName), page, size)
  {
    match Paginate(MatchingTickets(s, projectName), page, size)
    case None => Err(InvalidPagination)
    case Some(w) => Ok(w)
  }

  /** The listing does not depend on `user_name`. */
  lemma GetTicketsIgnoresUserName(s: Store, projectName: Option<string>, u1: Option<string>, u2: Option<string>,
                                  page: int, size: int)
    requires Valid(s)
    ensures GetTickets(s, projectName, u1, page, size) == GetTickets(s, projectName, u2, page, size)
  {
  }

  /** Different pages of one listing share no ticket. */
  lemma GetTicketsPagesDisjoint(s: Store, projectName: Option<string>, userName: Option<string>, size: int, p: int, q: int)
    requires Valid(s) && size >= 1 && 1 <= p < q
    ensures GetTickets(s, projectName, userName, p, size).Ok? && GetTickets(s, projectName, userName, q, size).Ok?
    ensures forall t :: t in GetTickets(s, projectName, userName, p, size).value ==>
                          t !in GetTickets(s, projectName, userName, q, size).value
  {
    var xs := MatchingTickets(s, projectName);
    PageArgumentsAccepted(xs, p, size);
    PageArgumentsAccepted(xs, q, size);
    PagesDisjoint(xs, GetTickets(s, projectName, userName, p, size).value,
                  GetTickets(s, projectName, userName, q, size).value, p, q, size);
  }

  /** Every ticket passing the filter is listed on some page. */
  lemma GetTicketsListsEveryMatch(s: Store, projectName: Option<string>, userName: Option<string>, size: int, t: Ticket)
    requires Valid(s) && size >= 1
    requires t in s.tickets.rows.Values && TicketFilter(s, t, projectName)
    ensures exists p :: p >= 1 && GetTickets(s, projectName, userName, p, size).Ok?
                        && t in GetTickets(s, projectName, userName, p, size).value
  {
    var xs := MatchingTickets(s, projectName);
    assert t in xs;
    var j :| 0 <= j < |xs| && xs[j] == t;
    var p := j / size + 1;
    ElementOnItsPage(xs, j, size);
    assert p >= 1;
    assert GetTickets(s, projectName, userName, p, size) == Ok(Paginate(xs, p, size).value);
  }

  /** Keys of the comments attached to ticket `ticketId`. */
  function CommentsOf(s: Store, ticketId: Id): set<Id> {
    set k | k in s.comments.rows && s.comments.rows[k].ticketId == ticketId
  }

  /** The store after ticket `id` and, by cascade, its comments are removed. */
  function WithoutTicket(s: Store, id: Id): Store {
    s.(tickets := RemoveAll(s.tickets, {id}), comments := RemoveAll(s.comments, CommentsOf(s, id)))
  }

  lemma DeleteTicketValid(s: Store, id: Id)
    requires Valid(s)
    ensures Valid(WithoutTicket(s, id))
  {
    var s' := WithoutTicket(s, id);
    RemoveAllWellFormed(s.tickets, TicketKey, {id});
    RemoveAllWellFormed(s.comments, CommentKey, CommentsOf(s, id));
    assert TablesValid(s');
    assert KeysDrawn(s');
    assert UniqueColumns(s');
    forall k | k in s'.comments.rows
      ensures s'.comments.rows[k].ticketId in s'.tickets.rows
    {
      assert k !in CommentsOf(s, id);
    }
    assert ForeignKeys(s');
  }

  /**
   * `_delete_ticket`: removes the ticket; the delete-orphan cascade removes
   * exactly the comments attached to it.
   */
  function DeleteTicket(s: Store, id: Id): (r: Result<Store, Error>)
    requires Valid(s)
    ensures r.Err? <==> id !in s.tickets.rows
    ensures r.Err? ==> r.error == NotFound(TicketEntity)
    ensures r.Ok? ==>
      var s' := r.value;
      && s'.tickets.rows == s.tickets.rows - {id}
      && (forall k :: k in s'.comments.rows <==> k in s.comments.rows && s.comments.rows[k].ticketId != id)
      && (forall k :: k in s'.comments.rows ==> s'.comments.rows[k] == s.comments.rows[k])
      && s'.users == s.users && s'.projects == s.projects
      && Valid(s')
  {
    if id !in s.tickets.rows then
      Err(NotFound(TicketEntity))
    else
      DeleteTicketValid(s, id);
      Ok(WithoutTicket(s, id))
  }

  /** After a deletion the ticket is not found any more. */
  lemma DeletedTicketIsGone(s: Store, id: Id)
    requires Valid(s) && DeleteTicket(s, id).Ok?
    ensures GetTicketById(DeleteTicket(s, id).value, id) == Err(NotFound(TicketEntity))
  {
  }
}

=== FILE: user_views.dfy ===
/**
 * Decision logic of the user endpoints (app/api/v1/user_views.py): partial
 * updates, deletion behind an existence check, and the user detail with its
 * optionally included tickets.
 */
module UserViews {
  import opened Wrappers
  import opened Seqs
  import opened Tables
  import opened Models
  import Users
  import Tickets

  /** The body of an update request; every field may be left out. */
  datatype UserUpdateRequest = UserUpdateRequest(
    username: Option<string>,
    email: Option<string>,
    status: Option<UserStatus>)

  /**
   * `create_user`: every user created through the API starts active; a taken
   * username or email is rejected by the unique constraints.
   */
  function CreateUser(s: Store, username: string, email: string): (r: Result<(Store, User), Error>)
    requires Valid(s)
    ensures r.Err? <==> Users.UsernameTaken(s, username) || Users.EmailTaken(s, email)
    ensures r.Err? ==> r.error == IntegrityError
    ensures r.Ok? ==>
      var (s', u) := r.value;
      && u.username == username && u.email == email && u.status == Active
      && u.userId !in s.users.rows && s'.users.rows == s.users.rows[u.userId := u]
      && Valid(s')
  {
    Users.CreateUser(s, username, email, Active)
  }

  /** A text field counts as supplied when it is present and non-empty, as Python truthiness has it. */
  predicate Supplied(field: Option<string>) {
    field.Some? && field.value != ""
  }

  /** The user after the supplied fields of `req` are written over it. */
  function Apply(u: User, req: UserUpdateRequest): User {
    var u1 := if Supplied(req.email) then u.(email := req.email.value) else u;
    var u2 := if req.status.Some? then u1.(status := req.status.value) else u1;
    if Supplied(req.username) then u2.(username := req.username.value) else u2
  }

  /** Some user other than `id` already holds the username or the email of `v`. */
  predicate ClashesWithOther(s: Store, id: Id, v: User) {
    exists k :: k in s.users.rows && k != id &&
      (s.users.rows[k].username == v.username || s.users.rows[k].email == v.email)
  }

  lemma ReplaceUserUnique(s: Store, id: Id, v: User)
    requires Valid(s) && id in s.users.rows && !ClashesWithOther(s, id, v)
    ensures UniqueColumns(s.(users := Update(s.users, id, v)))
  {
    var rows := s.users.rows[id := v];
    forall a, b | a in rows && b in rows && a != b
      ensures rows[a].username != rows[b].username && rows[a].email != rows[b].email
    {
      if a == id {
        assert b in s.users.rows && b != id && rows[b] == s.users.rows[b];
      } else if b == id {
        assert a in s.users.rows && a != id && rows[a] == s.users.rows[a];
      } else {
        assert rows[a] == s.users.rows[a] && rows[b] == s.users.rows[b];
      }
    }
  }

  lemma ReplaceUserValid(s: Store, id: Id, v: User)
    requires Valid(s) && id in s.users.rows && v.userId == id && !ClashesWithOther(s, id, v)
    ensures Valid(s.(users := Update(s.users, id, v)))
  {
    var s' := s.(users := Update(s.users, id, v));
    UpdateWellFormed(s.users, UserKey, id, v);
    assert TablesValid(s');
    assert s'.users.rows.Keys == s.users.rows.Keys;
    assert KeysDrawn(s');
    ReplaceUserUnique(s, id, v);
    ReplaceUserForeignKeys(s, id, v);
  }

  lemma ReplaceUserForeignKeys(s: Store, id: Id, v: User)
    requires ForeignKeys(s) && id in s.users.rows
    ensures ForeignKeys(s.(users := Update(s.users, id, v)))
  {
    var s' := s.(users := Update(s.users, id, v));
    forall x ensures x in s'.users.rows <==> x in s.users.rows {}
    forall k | k in s'.tickets.rows
      ensures Refers(s'.tickets.rows[k].createdBy, s'.users.rows)
      ensures Refers(s'.tickets.rows[k].assigneeId, s'.users.rows)
    {
      assert Refers(s.tickets.rows[k].createdBy, s.users.rows);
      assert Refers(s.tickets.rows[k].assigneeId, s.users.rows);
    }
    forall k | k in s'.comments.rows
      ensures Refers(s'.comments.rows[k].userId, s'.users.rows)
    {
      assert Refers(s.comments.rows[k].userId, s.users.rows);
    }
  }

  /**
   * `update_user`: not-found for an unknown user; otherwise the supplied email,
   * status and username are written, and the commit fails on a unique column
   * another user already holds.
   */
  function UpdateUser(s: Store, id: Id, req: UserUpdateRequest): (r: Result<(Store, User), Error>)
    requires Valid(s)
    ensures id !in s.users.rows ==> r == Err(NotFound(UserEntity))
    ensures id in s.users.rows ==> (r.Err? <==> ClashesWithOther(s, id, Apply(s.users.rows[id], req)))
    ensures id in s.users.rows && r.Err? ==> r.error == IntegrityError
    ensures r.Ok? ==>
      var (s', u) := r.value;
      && id in s.users.rows
      && var before := s.users.rows[id];
      && u.userId == id && u.apiKey == before.apiKey
      && u.email == (if Supplied(req.email) then req.email.value else before.email)
      && u.username == (if Supplied(req.username) then req.username.value else before.username)
      && u.status == (if req.status.Some? then req.status.value else before.status)
      && s'.users.rows == s.users.rows[id := u] && s'.users.order == s.users.order
      && s'.projects == s.projects && s'.tickets == s.tickets && s'.comments == s.comments
      && s'.nextId == s.nextId
      && Valid(s')
  {
    if id !in s.users.rows then Err(NotFound(UserEntity))
    else
      var v := Apply(s.users.rows[id], req);
      if ClashesWithOther(s, id, v) then Err(IntegrityError)
      else
        ReplaceUserValid(s, id, v);
        Ok((s.(users := Update(s.users, id, v)), v))
  }

  /** Sending the same update twice changes nothing the second time. */
  lemma UpdateUserIdempotent(s: Store, id: Id, req: UserUpdateRequest)
    requires Valid(s) && UpdateUser(s, id, req).Ok?
    ensures var (s', u) := UpdateUser(s, id, req).value;
      UpdateUser(s', id, req) == Ok((s', u))
  {
    var (s', u) := UpdateUser(s, id, req).value;
    assert s'.users.rows[id] == u;
    assert Apply(u, req) == u;
    assert s'.users.rows[id := u] == s'.users.rows;
    forall k | k in s'.users.rows && k != id
      ensures s'.users.rows[k].username != u.username && s'.users.rows[k].email != u.email
    {
      assert k in s.users.rows && s.users.rows[k] == s'.users.rows[k];
    }
    assert !ClashesWithOther(s', id, u);
  }

  /** A request that supplies nothing leaves the store and the user as they were. */
  lemma EmptyUpdateChangesNothing(s: Store, id: Id)
    requires Valid(s) && id in s.users.rows
    ensures UpdateUser(s, id, UserUpdateRequest(None, None, None)) == Ok((s, s.users.rows[id]))
  {
    var u := s.users.rows[id];
    assert Apply(u, UserUpdateRequest(None, None, None)) == u;
    assert !ClashesWithOther(s, id, u);
    assert s.users.rows[id := u] == s.users.rows;
  }

  /** `delete_user`: not-found for an unknown user, otherwise `_delete_user`. */
  function DeleteUser(s: Store, id: Id): (r: Result<Store, Error>)
    requires Valid(s)
    ensures r.Err? <==> id !in s.users.rows
    ensures r.Err? ==> r.error == NotFound(UserEntity)
    ensures r.Ok? ==>
      && r.value.users.rows == s.users.rows - {id}
      && Valid(r.value)
      && Users.GetUserById(r.value, id) == Err(NotFound(UserEntity))
  {
    var _ :- Users.GetUserById(s, id);
    Users.DeleteUser(s, id)
  }

  /** The tickets a user opened, in storage order. */
  function TicketsCreatedBy(s: Store, id: Id): (ts: seq<Ticket>)
    requires Valid(s)
    ensures forall t :: t in ts <==> t in s.tickets.rows.Values && t.createdBy == Some(id)
    ensures Distinct(ts)
  {
    RowsOfWellFormed(s.tickets, TicketKey);
    FilterDistinct(Rows(s.tickets), (t: Ticket) => t.createdBy == Some(id));
    Filter(Rows(s.tickets), (t: Ticket) => t.createdBy == Some(id))
  }

  /** The tickets assigned to a user, in storage order. */
  function TicketsAssignedTo(s: Store, id: Id): (ts: seq<Ticket>)
    requires Valid(s)
    ensures forall t :: t in ts <==> t in s.tickets.rows.Values && t.assigneeId == Some(id)
    ensures Distinct(ts)
  {
    RowsOfWellFormed(s.tickets, TicketKey);
    FilterDistinct(Rows(s.tickets), (t: Ticket) => t.assigneeId == Some(id));
    Filter(Rows(s.tickets), (t: Ticket) => t.assigneeId == Some(id))
  }

  /** A user with the ticket lists the request asked to include. */
  datatype UserDetail = UserDetail(
    user: User,
    ticketsCreated: Option<seq<Ticket>>,
    ticketsAssigned: Option<seq<Ticket>>)

  /** `get_user_by_id`: the user, plus the created and assigned tickets when asked for. */
  function GetUserById(s: Store, id: Id, includeCreated: bool, includeAssigned: bool): (r: Result<UserDetail, Error>)
    requires Valid(s)
    ensures r.Ok? <==> id in s.users.rows
    ensures r.Err? ==> r.error == NotFound(UserEntity)
    ensures r.Ok? ==> r.value.user == s.users.rows[id]
    ensures r.Ok? ==> (r.value.ticketsCreated.Some? <==> includeCreated)
    ensures r.Ok? ==> (r.value.ticketsAssigned.Some? <==> includeAssigned)
    ensures r.Ok? && includeCreated ==> forall t ::
      t in r.value.ticketsCreated.value <==> t in s.tickets.rows.Values && t.createdBy == Some(id)
    ensures r.Ok? && includeAssigned ==> forall t ::
      t in r.value.ticketsAssigned.value <==> t in s.tickets.rows.Values && t.assigneeId == Some(id)
  {
    var u :- Users.GetUserById(s, id);
    Ok(UserDetail(
      u,
      if includeCreated then Some(TicketsCreatedBy(s, id)) else None,
      if includeAssigned then Some(TicketsAssignedTo(s, id)) else None))
  }

  /** A ticket a user opens is listed among the tickets they created. */
  lemma CreatedTicketListedUnderCreator(s: Store, title: string, description: Option<string>, projectId: Id,
                                        userId: Id, status: Option<TicketStatus>)
    requires Valid(s) && Tickets.CreateTicket(s, title, description, projectId, userId, status).Ok?
    ensures var (s', t) := Tickets.CreateTicket(s, title, description, projectId, userId, status).value;
      && GetUserById(s', userId, true, false).Ok?
      && t in GetUserById(s', userId, true, false).value.ticketsCreated.value
  {
    var (s', t) := Tickets.CreateTicket(s, title, description, projectId, userId, status).value;
    assert s'.tickets.rows[t.ticketId] == t;
  }

  lemma NoTicketNames(s: Store, id: Id)
    requires Valid(s)
    requires forall k :: k in s.tickets.rows ==>
      s.tickets.rows[k].createdBy != Some(id) && s.tickets.rows[k].assigneeId != Some(id)
    ensures TicketsCreatedBy(s, id) == [] && TicketsAssignedTo(s, id) == []
  {
    forall t | t in s.tickets.rows.Values
      ensures t.createdBy != Some(id) && t.assigneeId != Some(id)
    {
      var k :| k in s.tickets.rows && s.tickets.rows[k] == t;
    }
    var created := TicketsCreatedBy(s, id);
    assert |created| == 0 by {
      assert forall i :: 0 <= i < |created| ==> created[i] !in created;
    }
    var assignedTickets := TicketsAssignedTo(s, id);
    assert |assignedTickets| == 0 by {
      assert forall i :: 0 <= i < |assignedTickets| ==> assignedTickets[i] !in assignedTickets;
    }
  }

  /** Once a user is deleted, no ticket names them as creator or assignee. */
  lemma DeletedUserHoldsNoTickets(s: Store, id: Id)
    requires Valid(s) && DeleteUser(s, id).Ok?
    ensures TicketsCreatedBy(DeleteUser(s, id).value, id) == []
    ensures TicketsAssignedTo(DeleteUser(s, id).value, id) == []
  {
    NoTicketNames(DeleteUser(s, id).value, id);
  }
}

=== FILE: users.dfy ===
/** User lookups, creation, listing and deletion (app/utils/user.py). */
module Users {
  import opened Wrappers
  import opened Seqs
  import opened Tables
  import opened Text
  import opened Paging
  import opened Models

  const DefaultUsername: string := "admin"

  /** The email given to a bootstrapped user, which the schema requires. */
  function PlaceholderEmail(username: string): string {
    username + "@localhost"
  }

  predicate UsernameTaken(s: Store, name: string) {
    exists k | k in s.users.rows :: s.users.rows[k].username == name
  }

  predicate EmailTaken(s: Store, email: string) {
    exists k | k in s.users.rows :: s.users.rows[k].email == email
  }

  /** `check_user_exists`: the user whose username equals `name` (case-sensitive), if any. */
  function CheckUserExists(s: Store, name: string): (r: Option<User>)
    requires Valid(s)
    ensures r.Some? <==> UsernameTaken(s, name)
    ensures r.Some? ==> r.value.username == name && r.value.userId in s.users.rows
                        && s.users.rows[r.value.userId] == r.value
    ensures r.Some? ==> forall k :: k in s.users.rows && s.users.rows[k].username == name ==> k == r.value.userId
  {
    RowsOfWellFormed(s.users, UserKey);
    assert forall k :: k in s.users.rows ==> s.users.rows[k] in s.users.rows.Values;
    FindFirst(Rows(s.users), (u: User) => u.username == name)
  }

  lemma AddUserUnique(s: Store, u: User)
    requires UniqueColumns(s) && u.userId !in s.users.rows
    requires !UsernameTaken(s, u.username) && !EmailTaken(s, u.email)
    ensures UniqueColumns(s.(users := Insert(s.users, u.userId, u), nextId := s.nextId + 2))
  {
    var rows := s.users.rows[u.userId := u];
    forall a, b | a in rows && b in rows && a != b
      ensures rows[a].username != rows[b].username && rows[a].email != rows[b].email
    {
      if a == u.userId {
        assert rows[b] == s.users.rows[b];
      } else if b == u.userId {
        assert rows[a] == s.users.rows[a];
      } else {
        assert rows[a] == s.users.rows[a] && rows[b] == s.users.rows[b];
      }
    }
  }

  lemma AddUserForeignKeys(s: Store, u: User)
    requires ForeignKeys(s)
    ensures ForeignKeys(s.(users := Insert(s.users, u.userId, u), nextId := s.nextId + 2))
  {
    var s' := s.(users := Insert(s.users, u.userId, u), nextId := s.nextId + 2);
    forall k | k in s'.tickets.rows
      ensures Refers(s'.tickets.rows[k].createdBy, s'.users.rows)
      ensures Refers(s'.tickets.rows[k].assigneeId, s'.users.rows)
    {
      assert Refers(s.tickets.rows[k].createdBy, s.users.rows);
      assert Refers(s.tickets.rows[k].assigneeId, s.users.rows);
    }
    forall k | k in s'.comments.rows
      ensures Refers(s'.comments.rows[k].userId, s'.users.rows)
    {
      assert Refers(s.comments.rows[k].userId, s.users.rows);
    }
  }

  /** Adding a user with fresh keys and an unused username and email keeps the store valid. */
  lemma AddUserValid(s: Store, u: User)
    requires Valid(s) && u.userId == s.nextId
    requires !UsernameTaken(s, u.username) && !EmailTaken(s, u.email)
    ensures Valid(s.(users := Insert(s.users, u.userId, u), nextId := s.nextId + 2))
  {
    var s' := s.(users := Insert(s.users, u.userId, u), nextId := s.nextId + 2);
    InsertWellFormed(s.users, UserKey, u.userId, u);
    assert TablesValid(s');
    assert KeysDrawn(s');
    AddUserUnique(s, u);
    AddUserForeignKeys(s, u);
  }

  /**
   * `_create_user`: inserts a user with a fresh `user_id` and `api_key`. The
   * unique constraints on username and email reject a duplicate.
   */
  function CreateUser(s: Store, username: string, email: string, status: UserStatus): (r: Result<(Store, User), Error>)
    requires Valid(s)
    ensures r.Err? <==> UsernameTaken(s, username) || EmailTaken(s, email)
    ensures r.Err? ==> r.error == IntegrityError
    ensures r.Ok? ==>
      var (s', u) := r.value;
      && u.username == username && u.email == email && u.status == status
      && u.userId !in s.users.rows && u.apiKey != u.userId
      && s'.users.rows == s.users.rows[u.userId := u]
      && s'.projects == s.projects && s'.tickets == s.tickets && s'.comments == s.comments
      && Valid(s')
  {
    if UsernameTaken(s, username) || EmailTaken(s, email) then
      Err(IntegrityError)
    else
      var u := User(s.nextId, username, email, status, s.nextId + 1);
      AddUserValid(s, u);
      Ok((s.(users := Insert(s.users, u.userId, u), nextId := s.nextId + 2), u))
  }

  /** A created user is found again by its username and by its id. */
  lemma CreatedUserIsFound(s: Store, username: string, email: string, status: UserStatus)
    requires Valid(s)
    requires CreateUser(s, username, email, status).Ok?
    ensures var (s', u) := CreateUser(s, username, email, status).value;
      && CheckUserExists(s', username) == Some(u)
      && GetUserById(s', u.userId) == Ok(u)
  {
    var (s', u) := CreateUser(s, username, email, status).value;
    assert UsernameTaken(s', username) by {
      assert s'.users.rows[u.userId].username == username;
    }
  }

  /**
   * `create_default_user`: returns the user called `name`, creating an active
   * one (with a placeholder email) when it is missing.
   */
  function CreateDefaultUser(s: Store, name: string := DefaultUsername): (r: Result<(Store, User), Error>)
    requires Valid(s)
    ensures UsernameTaken(s, name) ==>
      r.Ok? && r.value.0 == s && r.value.1.username == name && r.value.1.userId in s.users.rows
      && s.users.rows[r.value.1.userId] == r.value.1
    ensures !UsernameTaken(s, name) ==> (r.Err? <==> EmailTaken(s, PlaceholderEmail(name)))
    ensures !UsernameTaken(s, name) && r.Ok? ==>
      var (s', u) := r.value;
      && u.username == name && u.email == PlaceholderEmail(name) && u.status == Active
      && u.userId !in s.users.rows
      && s'.users.rows == s.users.rows[u.userId := u]
      && s'.projects == s.projects && s'.tickets == s.tickets && s'.comments == s.comments
    ensures r.Ok? ==> Valid(r.value.0)
  {
    match CheckUserExists(s, name)
    case Some(u) => Ok((s, u))
    case None => CreateUser(s, name, PlaceholderEmail(name), DefaultUserStatus)
  }

  /** The bootstrap is idempotent: a second call returns the same user and store. */
  lemma CreateDefaultUserIdempotent(s: Store, name: string)
    requires Valid(s)
    requires UsernameTaken(s, name) || !EmailTaken(s, PlaceholderEmail(name))
    ensures var (s1, u1) := CreateDefaultUser(s, name).value;
      CreateDefaultUser(s1, name) == Ok((s1, u1))
  {
    var (s1, u1) := CreateDefaultUser(s, name).value;
    assert s1.users.rows[u1.userId] == u1;
    assert UsernameTaken(s1, name) by {
      assert s1.users.rows[u1.userId].username == name;
    }
  }

  /**
   * `create_default_user` as written: the row it inserts leaves out the
   * NOT NULL `email` column, so the database rejects the insert.
   */
  function CreateDefaultUserAsWritten(s: Store, name: string := DefaultUsername): (r: Result<(Store, User), Error>)
    requires Valid(s)
    ensures r.Ok? <==> UsernameTaken(s, name)
    ensures r.Ok? ==> r.value.0 == s && r.value.1.username == name
    ensures r.Err? ==> r.error == IntegrityError
  {
    match CheckUserExists(s, name)
    case Some(u) => Ok((s, u))
    case None => Err(IntegrityError)
  }

  /** On a fresh database the bootstrap as written fails, the corrected one creates "admin". */
  lemma BootstrapOnEmptyStore()
    ensures CreateDefaultUserAsWritten(EmptyStore()).Err?
    ensures CreateDefaultUser(EmptyStore()).Ok?
    ensures CreateDefaultUser(EmptyStore()).value.1.username == "admin"
  {
    EmptyStoreValid();
  }

  /** `_get_user_by_id`: the user with key `id`, or not-found. */
  function GetUserById(s: Store, id: Id): (r: Result<User, Error>)
    requires Valid(s)
    ensures r.Ok? <==> id in s.users.rows
    ensures r.Ok? ==> r.value.userId == id && r.value in s.users.rows.Values
    ensures r.Err? ==> r.error == NotFound(UserEntity)
  {
    if id in s.users.rows then Ok(s.users.rows[id]) else Err(NotFound(UserEntity))
  }

  /**
   * The filters of `_get_users`: a non-empty `username` keeps users whose
   * username contains it case-insensitively; a `status` keeps exactly that status.
   */
  predicate UserFilter(u: User, username: Option<string>, status: Option<UserStatus>) {
    && (username.Some? && username.value != "" ==> ILike(u.username, username.value))
    && (status.Some? ==> u.status == status.value)
  }

  /** All users passing the filters, in storage order. */
  function MatchingUsers(s: Store, username: Option<string>, status: Option<UserStatus>): (us: seq<User>)
    requires Valid(s)
    ensures forall u :: u in us <==> u in s.users.rows.Values && UserFilter(u, username, status)
    ensures Distinct(us)
  {
    RowsOfWellFormed(s.users, UserKey);
    FilterDistinct(Rows(s.users), (u: User) => UserFilter(u, username, status));
    Filter(Rows(s.users), (u: User) => UserFilter(u, username, status))
  }

  /** The matches keep storage order: they are a subsequence of the stored rows. */
  lemma MatchingUsersInStorageOrder(s: Store, username: Option<string>, status: Option<UserStatus>)
    requires Valid(s)
    ensures exists idx :: Embeds(idx, MatchingUsers(s, username, status), Rows(s.users))
  {
    var p := (u: User) => UserFilter(u, username, status);
    FilterKeepsOrder(Rows(s.users), p);
    var idx :| Embeds(idx, Filter(Rows(s.users), p), Rows(s.users));
    assert MatchingUsers(s, username, status) == Filter(Rows(s.users), p);
    assert Embeds(idx, MatchingUsers(s, username, status), Rows(s.users));
  }

  /** `_get_users`: one page of the filtered users. */
  function GetUsers(s: Store, username: Option<string>, status: Option<UserStatus>, page: int, size: int)
    : (r: Result<seq<User>, Error>)
    requires Valid(s)
    ensures r.Err? <==> Offset(page, size) < 0 || size < 0
    ensures r.Err? ==> r.error == InvalidPagination
    ensures r.Ok? ==> |r.value| <= size
    ensures r.Ok? ==> forall u :: u in r.value ==> u in s.users.rows.Values && UserFilter(u, username, status)
    ensures r.Ok? ==> IsPage(r.value, MatchingUsers(s, username, status), page, size)
  {
    match Paginate(MatchingUsers(s, username, status), page, size)
    case None => Err(InvalidPagination)
    case Some(w) => Ok(w)
  }

  /** Different pages of one listing share no user. */
  lemma GetUsersPagesDisjoint(s: Store, username: Option<string>, status: Option<UserStatus>, size: int, p: int, q: int)
    requires Valid(s) && size >= 1 && 1 <= p < q
    ensures GetUsers(s, username, status, p, size).Ok? && GetUsers(s, username, status, q, size).Ok?
    ensures forall u :: u in GetUsers(s, username, status, p, size).value ==> u !in GetUsers(s, username, status, q, size).value
  {
    var xs := MatchingUsers(s, username, status);
    PageArgumentsAccepted(xs, p, size);
    PageArgumentsAccepted(xs, q, size);
    PagesDisjoint(xs, GetUsers(s, username, status, p, size).value, GetUsers(s, username, status, q, size).value, p, q, size);
  }

  /** Every user passing the filters is listed on some page. */
  lemma GetUsersListsEveryMatch(s: Store, username: Option<string>, status: Option<UserStatus>, size: int, u: User)
    requires Valid(s) && size >= 1
    requires u in s.users.rows.Values && UserFilter(u, username, status)
    ensures exists p :: p >= 1 && GetUsers(s, username, status, p, size).Ok? && u in GetUsers(s, username, status, p, size).value
  {
    var xs := MatchingUsers(s, username, status);
    assert u in xs;
    var j :| 0 <= j < |xs| && xs[j] == u;
    var p := j / size + 1;
    ElementOnItsPage(xs, j, size);
    assert p >= 1;
    assert GetUsers(s, username, status, p, size) == Ok(Paginate(xs, p, size).value);
  }

  /** A reference with `id` removed. */
  function Clear(ref: Option<Id>, id: Id): Option<Id> {
    if ref == Some(id) then None else ref
  }

  /** The ticket names user `id` as its creator or its assignee. */
  predicate NamesUser(t: Ticket, id: Id) {
    t.createdBy == Some(id) || t.assigneeId == Some(id)
  }

  /**
   * Clears the ticket's references to `id`. Clearing is an UPDATE of the row,
   * so its `updated_at` is refreshed to `now`; a ticket not naming `id` is
   * not touched.
   */
  function DetachTicket(t: Ticket, id: Id, now: Time): Ticket {
    if NamesUser(t, id) then
      t.(createdBy := Clear(t.createdBy, id), assigneeId := Clear(t.assigneeId, id), updatedAt := now)
    else t
  }

  function DetachComment(c: Comment, id: Id): Comment {
    c.(userId := Clear(c.userId, id))
  }

  /**
   * `_delete_user`: removes the user. Its tickets and comments are kept; the
   * ORM sets their references to the user to NULL, and each ticket so
   * updated gets a fresh `updated_at`.
   */
  function DeleteUser(s: Store, id: Id): (r: Result<Store, Error>)
    requires Valid(s)
    ensures r.Err? <==> id !in s.users.rows
    ensures r.Err? ==> r.error == NotFound(UserEntity)
    ensures r.Ok? ==>
      var s' := r.value;
      && s'.users.rows == s.users.rows - {id}
      && s'.projects == s.projects
      && s'.tickets.rows.Keys == s.tickets.rows.Keys
      && s'.comments.rows.Keys == s.comments.rows.Keys
      && (forall k :: k in s'.tickets.rows ==>
            var (t, t') := (s.tickets.rows[k], s'.tickets.rows[k]);
            && t'.createdBy != Some(id) && t'.assigneeId != Some(id)
            && (t.createdBy != Some(id) ==> t'.createdBy == t.createdBy)
            && (t.assigneeId != Some(id) ==> t'.assigneeId == t.assigneeId)
            && (NamesUser(t, id) ==> t'.updatedAt == s.clock)
            && (!NamesUser(t, id) ==> t' == t)
            && t'.(createdBy := t.createdBy, assigneeId := t.assigneeId, updatedAt := t.updatedAt) == t)
      && (forall k :: k in s'.comments.rows ==>
            var (c, c') := (s.comments.rows[k], s'.comments.rows[k]);
            && c'.userId != Some(id)
            && (c.userId != Some(id) ==> c'.userId == c.userId)
            && c'.(userId := c.userId) == c)
      && s'.clock > s.clock
      && Valid(s')
  {
    if id !in s.users.rows then
      Err(NotFound(UserEntity))
    else
      DeleteUserValid(s, id);
      Ok(WithoutUser(s, id))
  }

  /** The store after the user `id` is removed and references to it are cleared. */
  function WithoutUser(s: Store, id: Id): Store {
    s.(users := RemoveAll(s.users, {id}),
       tickets := MapRows(s.tickets, t => DetachTicket(t, id, s.clock)),
       comments := MapRows(s.comments, c => DetachComment(c, id)),
       clock := s.clock + 1)
  }

  lemma WithoutUserTablesValid(s: Store, id: Id)
    requires TablesValid(s)
    ensures TablesValid(WithoutUser(s, id))
  {
    RemoveAllWellFormed(s.users, UserKey, {id});
    MapRowsWellFormed(s.tickets, TicketKey, t => DetachTicket(t, id, s.clock));
    MapRowsWellFormed(s.comments, CommentKey, c => DetachComment(c, id));
  }

  lemma WithoutUserForeignKeys(s: Store, id: Id)
    requires ForeignKeys(s)
    ensures ForeignKeys(WithoutUser(s, id))
  {
    var s' := WithoutUser(s, id);
    forall k | k in s'.tickets.rows
      ensures s'.tickets.rows[k].projectId in s'.projects.rows
      ensures Refers(s'.tickets.rows[k].createdBy, s'.users.rows)
      ensures Refers(s'.tickets.rows[k].assigneeId, s'.users.rows)
    {
      assert s'.tickets.rows[k] == DetachTicket(s.tickets.rows[k], id, s.clock);
    }
    forall k | k in s'.comments.rows
      ensures s'.comments.rows[k].ticketId in s'.tickets.rows
      ensures Refers(s'.comments.rows[k].userId, s'.users.rows)
    {
      assert s'.comments.rows[k] == DetachComment(s.comments.rows[k], id);
    }
  }

  lemma DeleteUserValid(s: Store, id: Id)
    requires Valid(s)
    ensures Valid(WithoutUser(s, id))
  {
    WithoutUserTablesValid(s, id);
    WithoutUserForeignKeys(s, id);
    assert KeysDrawn(WithoutUser(s, id));
    assert UniqueColumns(WithoutUser(s, id));
  }
}

=== FILE: wrappers.dfy ===
/** Failure-carrying return types shared by every operation of the store. */
module Wrappers {

  /** An optional value: the source's `None` or a row / value. */
  datatype Option<+T> = None | Some(value: T)

  /** The outcome of an operation: a value, or the error the source raises or returns. */
  datatype Result<+T, +E> = Ok(value: T) | Err(error: E) {

    predicate IsFailure() {
      Err?
    }

    function PropagateFailure<U>(): Result<U, E>
      requires Err?
    {
      Err(error)
    }

    function Extract(): T
      requires Ok?
    {
      value
    }
  }
}
